=== FILE: README.md ===
# munki-facts in Dafny

munki-facts adds site-specific conditions to Munki's `ConditionalItems.plist`.
`munki_facts.py` finds every `.py` module in its `facts` directory and calls
each module's `fact()`. It merges the dictionaries that come back, tolerating
producers that raise, and replaces `None` values with `''`. It then overlays
the result on the existing plist and writes the plist back.

This project is a functional model of that engine and of the fact producers
around it:

- the upgrade-eligibility facts for Sierra, Catalina, Big Sur, Monterey and
  Ventura, and the combined macOS 13–15 fact;
- the `ac`-report helper `get_users()`;
- the physical/virtual and machine-type classifiers;
- the CrashPlan user name, the local home directories, and the group
  memberships of the top user.

Every host query is a parameter of the function that uses it. This covers:

- the sysctl strings and integers;
- the IORegistry bytes, decoded as text;
- the Darwin and macOS major versions;
- the output of `ac`, `id` and `system_profiler`;
- directory listings and file contents;
- the prior plist.

Python exceptions are values of `Results.PyError`. A producer's outcome is a
`Result<FactMap>`.

Modules:

- `Results`, `Facts`: `Option`/`Result` and Python exceptions; the fact
  value type (`None`, string, boolean, list or dictionary).
- `Text`, `Seqs`: the Python string and list operations the sources use:
  - `str.split()` with and without a separator;
  - `rstrip`, `partition`, `in` on strings, `lower()`;
  - list comprehensions with a filter and `list.remove`;
  - `sorted(..., reverse=True)`.
- `Engine`: discovery, invocation, merge, normalisation, overlay and the whole
  run.
- `Platform`: the helpers every upgrade module repeats:
  - the `VMM` feature test;
  - the allow-list, deny-list and device-id membership tests;
  - `io_key_string_value`;
  - the Darwin-to-minor-version arithmetic;
  - the version window.
- `SierraUpgrade`, `CatalinaUpgrade`, `BigSurUpgrade`, `MontereyUpgrade`,
  `VenturaUpgrade`, `MacosUpgrade`: the eligibility facts. They use the
  model, board and device lists transcribed entry by entry, in the source's
  order. Each list is written as blocks of ten joined with `+`. Adjacent
  literals that Python glues together because a comma is missing are
  transcribed glued, too (`"J316sAP" + "J456AP"`).
- `Users`: `facts/helpers/users.py`.
- `Profiler`, `PhysicalOrVirtual`, `MachineType`, `Classifiers`: the two
  classifiers of the `system_profiler` report, and how their answers relate.
- `CrashPlanUsername`, `LocalUserDirs`, `GroupMemberships`: the remaining
  facts.

The model follows the code where its behaviour is easy to misread:

- A `fact()` that returns `None` makes `facts.update(None)` raise TypeError.
  That producer contributes nothing; it is not a success with zero facts
  (`Engine.Invoke`).
- A failure to write the plist is only printed, and `main()` still returns
  `None`, so the process exits with status 0.
- The engine and the producers are Python 2 (`except BaseException, err:`,
  `print fact()`). A plain `open()` there does not use universal newlines, so
  `readlines()` splits the CrashPlan identity file at `\n` only, as the model
  does; a `\r` before `\n` is whitespace that `rstrip()` removes.
- Under that interpreter `facts/macos_upgrade_supported.py` does not compile
  (an f-string at line 294), so the combined macOS 13–15 producer never adds a
  fact to a real run. `MacosUpgrade.Fact` models its `fact()` as written.
- `machine_type.py` does not catch KeyError, so a report without
  `boot_rom_version` or `spethernet_vendor-id` fails the producer.

## Model

| member | source | states |
|---|---|---|
| Engine.LastIndexOf | munki_facts.py:23 | finds the last `.` of a name (or none), the position `splitext` cuts at |
| Engine.SplitExt | munki_facts.py:23 | `splitext` splits a name into stem + extension; the extension starts at the last dot and is empty when the stem before it is only dots |
| Engine.StemOfProducerFile | munki_facts.py:22-25 | a discovered producer's name is its file name without `.py`, except for dot-only stems, which `splitext` leaves whole |
| Engine.Discover | munki_facts.py:22-25 | every discovered name is the stem of a listed `.py` file other than `__init__.py`, and every such file is discovered |
| Engine.DiscoverStep | munki_facts.py:22-25 | names found in the tail of a listing are stems of files in the whole listing |
| Engine.DiscoverAppend | munki_facts.py:22-25 | discovery keeps listing order: a concatenated listing yields the two name lists one after the other |
| Engine.Invoke | munki_facts.py:30-34 | a producer succeeds exactly when `fact()` returns a dictionary; raising, or returning `None` (TypeError in `update`), is a failure |
| Engine.Merge | munki_facts.py:27-34 | a key is in the merged facts exactly when some successful producer emitted it |
| Engine.MergeStep | munki_facts.py:32 | one `update` adds exactly the keys the next successful producer emitted |
| Engine.LastWriterWins | munki_facts.py:27-34 | a merged key holds the value of the last producer that emitted it |
| Engine.MergeAppend | munki_facts.py:27-34 | merging two runs of producers is overlaying the second merge on the first |
| Engine.FailureContributesNothing | munki_facts.py:33-34 | a producer that raised leaves the merged facts as if it had not been run |
| Engine.Normalize | munki_facts.py:39-41 | keys are unchanged, every `None` value becomes `''`, and every other value is kept |
| Engine.NormalizeIdempotent | munki_facts.py:39-41 | normalising twice equals normalising once |
| Engine.Overlay | munki_facts.py:49-58 | the document has the prior keys plus the fact keys; facts win, other prior entries are kept, and an unreadable prior counts as empty |
| Engine.OverlayIdempotent | munki_facts.py:49-58 | overlaying the same facts on the result again changes nothing |
| Engine.Apply | munki_facts.py:27-62 | nothing is written exactly when no producer emitted a key; otherwise the document's keys are exactly the prior keys and the emitted keys, an emitted key holds its last emitter's value with `None` stored as `''`, and unemitted prior keys keep their values |
| Engine.Run | munki_facts.py:16-62 | a whole run writes nothing exactly when no discovered producer yields a key; otherwise the document holds exactly the prior keys and the yielded keys, each yielded key with the value from the last producer that returned it (`None` stored as `''`), and other prior keys unchanged |
| Engine.InvokeAll | munki_facts.py:27-34 | one outcome per discovered producer; outcome j emits k exactly when producer j returned a dictionary containing k |
| Engine.ApplyIdempotent | munki_facts.py:36-62 | running again over the written document with the same outcomes writes the same document |
| Engine.MixedOutcomesExample | munki_facts.py:27-62 | `{a: "1"}`, a raise and `{b: None}` are written as `{a: "1", b: ""}` |
| Engine.EmptyRunExample | munki_facts.py:36 | a run in which every producer fails writes nothing |
| Platform.VmmIsWholeFlag | facts/monterey_upgrade_supported.py:85-88 | `'VMM' in features.split()` holds exactly when `VMM` occurs delimited by whitespace or the ends of the string |
| Platform.VmmPrefixIsNotVmm | facts/monterey_upgrade_supported.py:87-88 | a flag `VMMX` contains `VMM` as a substring but does not make a virtual machine |
| Platform.VmmFlagIsVmm | facts/monterey_upgrade_supported.py:87-88 | a `VMM` flag among others makes a virtual machine |
| Platform.IoKeyStringValue | facts/monterey_upgrade_supported.py:53-58 | the result is a prefix of the registry text, only NUL characters were dropped, and it does not end in NUL |
| Platform.StripsOnlyTerminators | facts/monterey_upgrade_supported.py:53-58 | a value not ending in NUL comes back exactly, whatever run of NULs follows it |
| Platform.InVersionWindow | facts/monterey_upgrade_supported.py:235-250 | the if/elif ladder over `darwin - 4` accepts exactly the Darwin versions `first + 4 <= darwin < beyond + 4` |
| Platform.IsListedModel | facts/monterey_upgrade_supported.py:91-141 | a supported model is listed and non-empty; when the list has no empty entry, exactly the listed models pass |
| Platform.IsNotDenied | facts/catalina_upgrade_supported.py:83-152 | a model passes exactly when it differs from every entry of the deny list |
| Platform.IsListedDeviceId | facts/monterey_upgrade_supported.py:194-232 | `hw.target` passes exactly when it equals some listed device id after both are lower-cased |
| Platform.BoolFact | facts/monterey_upgrade_supported.py:265-272 | a producer's result is a one-key dictionary holding a boolean |
| MontereyUpgrade.Fact | facts/monterey_upgrade_supported.py:265-272 | a VM is always eligible; otherwise eligible exactly when model, board id or device id is listed and Darwin is 13 to 20 |
| MontereyUpgrade.JoinedDeviceIds | facts/monterey_upgrade_supported.py:220-221 | the missing comma makes `J316sAP` and `J456AP` unsupported and their concatenation supported |
| MontereyUpgrade.NotOfferedOnceInstalled | facts/monterey_upgrade_supported.py:241-250 | from Darwin 21 (macOS 12) on, only a virtual machine is eligible |
| VenturaUpgrade.Fact | facts/ventura_upgrade_supported.py:239-246 | a VM is always eligible; otherwise eligible exactly when model, board id or device id is listed and Darwin is 13 to 21 |
| VenturaUpgrade.DeviceIdIgnoresCase | facts/ventura_upgrade_supported.py:172 | the listed `VMM-x86_64` is matched by `hw.target` in any letter case |
| VenturaUpgrade.NotOfferedOnceInstalled | facts/ventura_upgrade_supported.py:215-224 | from Darwin 22 (macOS 13) on, only a virtual machine is eligible |
| BigSurUpgrade.Fact | facts/bigsur_upgrade_supported.py:242-249 | a VM is always eligible; otherwise eligible exactly when model or board id is listed and Darwin is 13 to 19 |
| BigSurUpgrade.TerminatorsIgnored | facts/bigsur_upgrade_supported.py:51-56 | trailing NULs after the registry model and board id do not change the answer |
| BigSurUpgrade.NotOfferedOnceInstalled | facts/bigsur_upgrade_supported.py:148-157 | from Darwin 20 on, only a virtual machine is eligible |
| CatalinaUpgrade.EmptyModelPasses | facts/catalina_upgrade_supported.py:83-152 | no denied entry is empty, so a Mac whose model reads as empty passes the model test |
| CatalinaUpgrade.Fact | facts/catalina_upgrade_supported.py:262-269 | a VM is always eligible; otherwise eligible exactly when the model is not denied, the board id is listed and Darwin is 13 to 18 |
| CatalinaUpgrade.EachConditionNeeded | facts/catalina_upgrade_supported.py:266-269 | a physical machine failing any one of the three tests is not eligible |
| SierraUpgrade.BoardId | facts/sierra_upgrade_supported.py:133-135 | the board id is the registry bytes without their last byte, and empty bytes give an empty id |
| SierraUpgrade.EmptyModelPasses | facts/sierra_upgrade_supported.py:67-112 | no denied entry is empty, so an empty model passes the model test |
| SierraUpgrade.Fact | facts/sierra_upgrade_supported.py:213-220 | a VM is always eligible; otherwise eligible exactly when the model is not denied, the board id is listed and Darwin is 11 to 15 |
| SierraUpgrade.ListedBoardIdLength | facts/sierra_upgrade_supported.py:141-209 | every listed board id has 12 or 20 characters |
| SierraUpgrade.BoardIdDropsTerminator | facts/sierra_upgrade_supported.py:133-135 | a listed board id matches when the registry adds its NUL, and not when no terminator is present |
| MacosUpgrade.FromPairs | facts/macos_upgrade_supported.py:275-285 | assigning `facts[name] = value` in order keeps every name, and the last assignment to a name wins |
| MacosUpgrade.FromPairsKeys | facts/macos_upgrade_supported.py:275-285 | a name is a key exactly when some assignment names it |
| MacosUpgrade.Assignments | facts/macos_upgrade_supported.py:276-284 | one assignment per release, named `<name>_upgrade_supported`, holding the release's eligibility |
| MacosUpgrade.TableFactNames | facts/macos_upgrade_supported.py:23-180 | the release table names sequoia, sonoma and ventura, in that order |
| MacosUpgrade.Fact | facts/macos_upgrade_supported.py:273-285 | exactly the three fact names; each is true when the machine is a VM, or when the model is listed for that release and the running major version is older |
| MacosUpgrade.JoinedSequoiaModels | facts/macos_upgrade_supported.py:76-77 | the missing comma leaves `Macmini9,1` and `MacPro7,1` off the Sequoia list, though Sonoma lists both |
| MacosUpgrade.MacMiniOnVentura | facts/macos_upgrade_supported.py:76-77 | a Mac mini 9,1 on macOS 13 is offered Sonoma but not Sequoia |
| MacosUpgrade.VirtualMachineOfferedEverything | facts/macos_upgrade_supported.py:278-279 | a virtual machine is eligible for every release |
| MacosUpgrade.EligibilityAntitone | facts/macos_upgrade_supported.py:280-282 | from macOS 11 on, a machine eligible on a newer running version was also eligible on an older one |
| Users.OutputLines | facts/helpers/users.py:39 | exactly the non-empty newline-separated pieces of the output, in order and with their multiplicities |
| Users.FirstWords | facts/helpers/users.py:27 | the first word of every line in order, or IndexError exactly when some line has no word |
| Users.RemoveIfPresent | facts/helpers/users.py:30-31 | removes the first occurrence of the name if present and leaves the list unchanged otherwise |
| Users.Exclude | facts/helpers/users.py:15-31 | removes the first `_mbsetupuser`, then the first `root`, then the first `total`, each only if present; nothing else changes |
| Users.UsersFromAc | facts/helpers/users.py:12-33 | fails with IndexError exactly when a non-empty line has no word; otherwise the excluded first words |
| Users.NumLogins | facts/helpers/users.py:48-52 | the login count plus the number of empty pieces is the number of newline-separated pieces of the `ac -d` output |
| Users.NumLoginsAppend | facts/helpers/users.py:48-52 | the login count of two reports joined at a newline is the sum of their counts |
| Users.LineTime | facts/helpers/users.py:42 | `float(line.split()[3])`: IndexError exactly when the line has fewer than four fields, ValueError when the field is not a number |
| Users.FieldTimes | facts/helpers/users.py:41-42 | succeeds exactly when every line's fourth field is readable, with one time per line |
| Users.PositiveSum | facts/helpers/users.py:43-44 | zero for no times, `max(t, 0)` for one time `t`, non-negative and at least each positive time |
| Users.PositiveSumAppend | facts/helpers/users.py:41-44 | summing two lists of times is adding their sums |
| Users.ConnectTime | facts/helpers/users.py:35-46 | the sum of the positive fourth fields of the non-empty lines; fails exactly when some line cannot be read, with IndexError or ValueError |
| Users.FieldTimesAppend | facts/helpers/users.py:41-42 | reading two blocks of lines is reading each block |
| Users.PositiveTimesAppend | facts/helpers/users.py:41-44 | the positive times of two blocks of lines read as one are the sum of each block's |
| Users.ConnectTimeAppend | facts/helpers/users.py:35-46 | the connect time of two reports joined at a newline is the sum of their connect times |
| Users.OutputLinesAppend | facts/helpers/users.py:39 | the lines of two reports joined at a newline are the lines of each |
| Users.SingleOutputLine | facts/helpers/users.py:39 | a non-empty text without a newline is exactly one output line |
| Users.OneLineReport | facts/helpers/users.py:35-52 | a report of one readable line counts one login and contributes its time when that is positive, zero otherwise |
| Users.UsersInfo | facts/helpers/users.py:55-75 | one entry per listed user with that user's connect time and login count; a failure names a user whose report is unreadable |
| Users.GetUsers | facts/helpers/users.py:77-93 | a permutation of the distinct reported users, ordered from the largest metric down, whenever both reports are readable and `sorted_by` is known; a report's failure is passed on unchanged; an unknown `sorted_by` exits with status 1 |
| Users.RankedUsersDistinct | facts/helpers/users.py:83-87 | the ranking holds every reported user exactly once |
| Profiler.Lookup | facts/physical_or_virtual.py:61 | `plist[i]['_items'][0][key]` succeeds exactly when every step exists; a missing key is KeyError and a short list is IndexError |
| PhysicalOrVirtual.VendorFromReport | facts/physical_or_virtual.py:55-74 | a VM's report gives vmware, virtualbox, parallels or unknown_virtual, or fails only with IndexError; `virtualbox` exactly when the boot ROM names VirtualBox and not VMW; `unknown_virtual` exactly when a lookup hits a missing key before a test matches, or no test matches |
| PhysicalOrVirtual.Classify | facts/physical_or_virtual.py:48-74 | always one of the five kinds; `physical` exactly for a non-VM; ExpatError exactly for a VM with an unparsable report; `unknown_virtual` for a VM whose report the tool could not produce |
| PhysicalOrVirtual.Fact | facts/physical_or_virtual.py:77-79 | the one-key dictionary holding the classification, or its failure |
| PhysicalOrVirtual.VmwareIffBootRomSaysSo | facts/physical_or_virtual.py:61-63 | `vmware` exactly when a VM's boot ROM version contains `VMW` |
| PhysicalOrVirtual.VmwareTakesPrecedence | facts/physical_or_virtual.py:62-65 | a boot ROM naming both VMware and VirtualBox gives `vmware` |
| PhysicalOrVirtual.ParallelsIffVendorId | facts/physical_or_virtual.py:62-69 | `parallels` exactly when neither boot ROM test matches and the vendor id contains `0x1ab8` |
| PhysicalOrVirtual.VirtualBoxIff | facts/physical_or_virtual.py:61-65 | a VM is `virtualbox` exactly when its boot ROM version contains `VirtualBox` and not `VMW` |
| PhysicalOrVirtual.UnknownVirtualIff | facts/physical_or_virtual.py:61-74 | a VM with a parsed report is `unknown_virtual` exactly when the boot-ROM lookup raises KeyError, or no boot-ROM test matches and the vendor-id lookup raises KeyError or lacks `0x1ab8` |
| PhysicalOrVirtual.FailsOnlyOnShortLists | facts/physical_or_virtual.py:61-72 | KeyError is caught, so the producer fails only when a lookup indexes past the end of a list |
| MachineType.Classify | facts/machine_type.py:6-24 | one of four kinds; `Unknown` exactly when the tool cannot run; on a parsed report it succeeds exactly when both lookups do |
| MachineType.Fact | facts/machine_type.py:26 | the one-key dictionary holding the classification, or its failure |
| MachineType.MissingBootRomFails | facts/machine_type.py:14-24 | a report without `boot_rom_version` fails the producer with KeyError |
| MachineType.ParallelsIffVendorId | facts/machine_type.py:16-19 | `parallels` exactly when the boot ROM lacks `VMW` and the vendor id contains `0x1ab8` |
| Classifiers.AgreeOnVendors | facts/machine_type.py:16-21 | on a VM, the two classifiers agree on VMware, and a Parallels answer from `physical_or_virtual` is Parallels for `machine_type` |
| Classifiers.VirtualBoxIsNotRecognised | facts/machine_type.py:16-21 | `machine_type` reports a VirtualBox guest as physical or parallels |
| CrashPlanUsername.ScanLines | facts/crashplan_username.py:10-13 | the name never ends in whitespace |
| CrashPlanUsername.ScanFindsFirstLine | facts/crashplan_username.py:7-13 | the name is what follows `username=` on the first such line, right-stripped, and `''` when no line starts that way |
| CrashPlanUsername.PartitionAfterPrefix | facts/crashplan_username.py:12 | on a `username=` line, `partition('=')[2]` is everything after the prefix |
| CrashPlanUsername.Username | facts/crashplan_username.py:4-15 | an unreadable file gives `''`; a readable one gives the scan of its lines |
| CrashPlanUsername.Fact | facts/crashplan_username.py:17 | the producer never fails and returns the one key `crashplan_username` |
| CrashPlanUsername.LaterLinesIgnored | facts/crashplan_username.py:11-13 | lines after the first `username=` line do not matter |
| CrashPlanUsername.NameFollowsPrefix | facts/crashplan_username.py:12 | any name, `=` included, followed by whitespace is read back exactly |
| LocalUserDirs.UserDirs | facts/local_user_dirs.py:11-13 | an order-preserving sub-list of the listing holding exactly the entries that are not skipped names and do not start with `.`, each as often as listed |
| LocalUserDirs.Fact | facts/local_user_dirs.py:14 | the one key `local_user_dirs` holding the filtered list |
| LocalUserDirs.UserDirsIdempotent | facts/local_user_dirs.py:12-13 | filtering an already filtered listing changes nothing |
| LocalUserDirs.UserDirsAppend | facts/local_user_dirs.py:12-13 | each entry is judged on its own: the filter distributes over concatenation |
| GroupMemberships.FoundGroups | facts/group_memberships.py:30-34 | an order-preserving sub-list of the search groups holding exactly those whose name occurs in the `id` output |
| GroupMemberships.QueryTopUser | facts/group_memberships.py:24-38 | succeeds exactly when the ranking is non-empty; an empty ranking is IndexError and a failed ranking passes through |
| GroupMemberships.Fact | facts/group_memberships.py:23-38 | the same, for the connect-time ranking of `get_users()` |
| GroupMemberships.ConnectTimeRankingHasNoExit | facts/group_memberships.py:24 | ranking by connect time never exits; it fails only with IndexError or ValueError |
| GroupMemberships.QueriedUserIsTopUser | facts/group_memberships.py:24 | the user asked about has at least the connect time of every reported user |

## Left out

- Host effects are parameters and are not modelled:
  - loading modules with `imp.load_source`;
  - `os.listdir`, `os.uname` and `platform.mac_ver`;
  - the ctypes `sysctl` wrapper and IOKit registry access;
  - `subprocess`, file reads and `CFPreferencesCopyAppValue`;
  - plist parsing and writing.
- `sysctl` returns `None` for an integer query whose buffer is neither 4 nor
  8 bytes. For `kern.hv_vmm_present` this is the `None` case of `hvVmmPresent`.
- Printing of error messages, and the exit status, are not modelled. A failed
  plist write is not modelled either: the run's result is the document it
  would write.
- Darwin and macOS versions are integers supplied by the caller. Parsing
  `os.uname()[2]` and `mac_ver()` is not modelled, and neither is the
  ValueError a malformed version would raise.
- Whitespace is the ASCII set (space, tab, newline, carriage return, vertical
  tab, form feed), and `lower()` folds only ASCII letters. Python's Unicode
  whitespace and case mapping are not modelled.
- `MacosUpgrade.Fact` models `fact()` as if `facts/macos_upgrade_supported.py`
  compiled. The engine is Python 2, and the f-string at line 294 of that file
  is a SyntaxError there. `imp.load_source` therefore raises, and in a real run
  that producer is a failure outcome that adds no fact.
- `Users.LineTime`: parsing the number is a caller-supplied `parse` function.
  Times are exact reals, so the rounding of Python's float additions is not
  modelled.
- `Users.GetUsers`: Python 2 iterates `users_info` in hash order, and
  `sorted` keeps that order among users with equal metrics. The model starts
  from the order of first appearance. Its contract therefore states a
  permutation sorted by the metric, and does not fix the order of ties.
- `MacosUpgrade.EligibilityAntitone` holds only from macOS 11 on. Below that,
  the virtual-machine test switches from `kern.hv_vmm_present` to the CPU
  feature flags, so the two versions are not comparable.
- The model's `system_profiler` report holds strings in an array. Other
  shapes are not modelled:
  - a looked-up value that is an array or a dictionary makes `in` a test for
    a whole element or key rather than a substring;
  - a value that is neither a string nor a container (an integer, a boolean, a
    date, data) makes `in` raise TypeError;
  - a report whose top level is a dictionary makes `plist[1]` raise KeyError,
    which `physical_or_virtual.py` turns into `unknown_virtual` and
    `machine_type.py` does not catch.
- `stdout.strip()` in `machine_type.py` is not modelled; it changes none of
  the four constant answers.
- These producers are not part of this model: `system_extensions`,
  `filevault_status`, `sip_status`, `gatekeeper_status`,
  `backtomymac_configured`, `admin_users` and `top_user`.

=== FILE: bigsur_upgrade.dfy ===
/** The `bigsur_upgrade_supported` producer: whether this Mac can be upgraded
    to macOS 11 Big Sur. A virtual machine always can; otherwise the hardware
    must be recognised by model or board id, and the running system must be
    macOS 10.9 through 10.15.

    Host inputs: the `machdep.cpu.features` sysctl string, the raw `model` and
    `board-id` IORegistry values decoded as text, and the Darwin major version
    from `os.uname()`.
 */
module BigSurUpgrade {
  import opened Text
  import opened Facts
  import opened Platform

  const FactKey := "bigsur_upgrade_supported"

  /** `supported_models` in `is_supported_model()`. */
  const SupportedModels: seq<string> :=
    [
      "MacBook10,1", "MacBook8,1", "MacBook9,1", "MacBookAir6,1", "MacBookAir6,2",
      "MacBookAir7,1", "MacBookAir7,2", "MacBookAir8,1", "MacBookAir8,2", "MacBookPro11,2"
    ] + [
      "MacBookPro11,3", "MacBookPro11,4", "MacBookPro11,5", "MacBookPro12,1", "MacBookPro13,1",
      "MacBookPro13,2", "MacBookPro13,3", "MacBookPro14,1", "MacBookPro14,2", "MacBookPro14,3"
    ] + [
      "MacBookPro15,1", "MacBookPro15,2", "MacBookPro15,3", "MacBookPro15,4", "MacPro6,1",
      "MacPro7,1", "Macmini7,1", "Macmini8,1", "iMac14,4", "iMac15,1"
    ] + [
      "iMac16,1", "iMac16,2", "iMac17,1", "iMac18,1", "iMac18,2",
      "iMac18,3", "iMac19,1", "iMac19,2", "iMacPro1,1"
    ]

  /** `platform_support_values` in `is_supported_board_id()`. */
  const PlatformSupportValues: seq<string> :=
    [
      "Mac-226CB3C6A851A671", "Mac-36B6B6DA9CFCD881", "Mac-112818653D3AABFC", "Mac-9394BDF4BF862EE7", "Mac-AA95B1DDAB278B95",
      "Mac-CAD6701F7CEA0921", "Mac-50619A408DB004DA", "Mac-7BA5B2D9E42DDD94", "Mac-CFF7D910A743CAAF", "Mac-B809C3757DA9BB8D"
    ] + [
      "Mac-F305150B0C7DEEEF", "Mac-35C1E88140C3E6CF", "Mac-827FAC58A8FDFA22", "Mac-6FEBD60817C77D8A", "Mac-7BA5B2DFE22DDD8C",
      "Mac-827FB448E656EC26", "Mac-66E35819EE2D0D05", "Mac-BE0E8AC46FE800CC", "Mac-5A49A77366F81C72", "Mac-63001698E7A34814"
    ] + [
      "Mac-937CB26E2E02BB01", "Mac-FFE5EF870D7BA81A", "Mac-87DCB00F4AD77EEA", "Mac-A61BADE1FDAD7B05", "Mac-C6F71043CEAA02A6",
      "Mac-4B682C642B45593E", "Mac-1E7E29AD0135F9BC", "Mac-90BE64C3CB5A9AEB", "Mac-3CBD00234E554E41", "Mac-B4831CEBD52A0C4C"
    ] + [
      "Mac-E1008331FDC96864", "Mac-FA842E06C61E91C5", "Mac-81E3E92DD6088272", "Mac-06F11FD93F0323C5", "Mac-06F11F11946D27C5",
      "Mac-F60DEB81FF30ACF6", "Mac-473D31EABEB93F9B", "Mac-0CFF9C7C2B63DF8D", "Mac-9F18E312C5C2BF0B", "Mac-E7203C0F68AA0004"
    ] + [
      "Mac-65CE76090165799A", "Mac-CF21D135A7D34AA6", "Mac-112B0A653D3AAB9C", "Mac-DB15BD556843C820", "Mac-27AD2F918AE68F61",
      "Mac-937A206F2EE63C01", "Mac-77F17D7DA9285301", "Mac-9AE82516C7C6B903", "Mac-BE088AF8C5EB4FA2", "Mac-551B86E5744E2388"
    ] + [
      "Mac-564FBA6031E5946A", "Mac-A5C67F76ED83108C", "Mac-5F9802EFE386AA28", "Mac-747B1AEFF11738BE", "Mac-AF89B6D9451A490B",
      "Mac-EE2EBD4B90B839A8", "Mac-42FD25EABCABB274", "Mac-2BD1B31983FE1663", "Mac-7DF21CB3ED6977E5", "Mac-A369DDC4E67F1C45"
    ] + [
      "Mac-35C5E08120C7EEAF", "Mac-E43C1C25D4880AD6", "Mac-53FDB3D8DB8CA971"
    ]

  /** `fact()`: a virtual machine is always eligible; any other Mac is eligible
      when its model or its board id is recognised and it runs Darwin 13
      through 19 (macOS 10.9 through 10.15). */
  function Fact(cpuFeatures: string, modelRaw: string, boardRaw: string, darwinMajor: int): (r: FactMap)
    ensures r.Keys == {FactKey}
    ensures HasVmmFeature(cpuFeatures) ==> r[FactKey] == Bool(true)
    ensures !HasVmmFeature(cpuFeatures) ==>
      (r[FactKey] == Bool(true) <==>
        && (IoKeyStringValue(modelRaw) in SupportedModels || IoKeyStringValue(boardRaw) in PlatformSupportValues)
        && 13 <= darwinMajor <= 19)
    ensures r[FactKey] == Bool(false) || r[FactKey] == Bool(true)
  {
    if HasVmmFeature(cpuFeatures) then BoolFact(FactKey, true)
    else if (IsListedModel(IoKeyStringValue(modelRaw), SupportedModels) || IoKeyStringValue(boardRaw) in PlatformSupportValues)
         && InVersionWindow(darwinMajor, 9, 16)
    then BoolFact(FactKey, true)
    else BoolFact(FactKey, false)
  }

  /** Trailing NUL terminators on the registry's model and board values do
      not change the answer. */
  lemma TerminatorsIgnored(cpuFeatures: string, model: string, board: string, terminators: string, darwinMajor: int)
    requires model == [] || model[|model| - 1] != '\0'
    requires board == [] || board[|board| - 1] != '\0'
    requires forall i :: 0 <= i < |terminators| ==> terminators[i] == '\0'
    ensures Fact(cpuFeatures, model + terminators, board + terminators, darwinMajor) == Fact(cpuFeatures, model, board, darwinMajor)
  {
    StripsOnlyTerminators(model, terminators);
    StripsOnlyTerminators(board, terminators);
    StripsOnlyTerminators(model, []);
    StripsOnlyTerminators(board, []);
    assert model + [] == model && board + [] == board;
  }

  /** Once the Mac runs Big Sur or later only a virtual machine is offered the
      upgrade, whatever its hardware. */
  lemma NotOfferedOnceInstalled(cpuFeatures: string, modelRaw: string, boardRaw: string, darwinMajor: int)
    requires darwinMajor >= 20
    ensures Fact(cpuFeatures, modelRaw, boardRaw, darwinMajor)[FactKey] == Bool(HasVmmFeature(cpuFeatures))
  {
  }
}

=== FILE: catalina_upgrade.dfy ===
/** The `catalina_upgrade_supported` producer: whether this Mac can be
    upgraded to macOS 10.15 Catalina. A virtual machine always can; otherwise
    the model must not be on the list of excluded models, the board id must
    be on the list of supported boards, and the running system must be macOS
    10.9 through 10.14.

    Host inputs: the `machdep.cpu.features` sysctl string, the raw `model` and
    `board-id` IORegistry values decoded as text, and the Darwin major version
    from `os.uname()`.
 */
module CatalinaUpgrade {
  import opened Text
  import opened Facts
  import opened Platform

  const FactKey := "catalina_upgrade_supported"

  /** `non_supported_models` in `is_supported_model()`. */
  const NonSupportedModels: seq<string> :=
    [
      "iMac4,1", "iMac4,2", "iMac5,1", "iMac5,2", "iMac6,1",
      "iMac7,1", "iMac8,1", "iMac9,1", "iMac10,1", "iMac11,1"
    ] + [
      "iMac11,2", "iMac11,3", "iMac12,1", "iMac12,2", "MacBook1,1",
      "MacBook2,1", "MacBook3,1", "MacBook4,1", "MacBook5,1", "MacBook5,2"
    ] + [
      "MacBook6,1", "MacBook7,1", "MacBookAir1,1", "MacBookAir2,1", "MacBookAir3,1",
      "MacBookAir3,2", "MacBookAir4,1", "MacBookAir4,2", "MacBookPro1,1", "MacBookPro1,2"
    ] + [
      "MacBookPro2,1", "MacBookPro2,2", "MacBookPro3,1", "MacBookPro4,1", "MacBookPro5,1",
      "MacBookPro5,2", "MacBookPro5,3", "MacBookPro5,4", "MacBookPro5,5", "MacBookPro6,1"
    ] + [
      "MacBookPro6,2", "MacBookPro7,1", "MacBookPro8,1", "MacBookPro8,2", "MacBookPro8,3",
      "Macmini1,1", "Macmini2,1", "Macmini3,1", "Macmini4,1", "Macmini5,1"
    ] + [
      "Macmini5,2", "Macmini5,3", "MacPro1,1", "MacPro2,1", "MacPro3,1",
      "MacPro4,1", "MacPro5,1", "Xserve1,1", "Xserve2,1", "Xserve3,1"
    ]

  /** `platform_support_values` in `is_supported_board_id()`. */
  const PlatformSupportValues: seq<string> :=
    [
      "Mac-00BE6ED71E35EB86", "Mac-1E7E29AD0135F9BC", "Mac-2BD1B31983FE1663", "Mac-2E6FAB96566FE58C", "Mac-3CBD00234E554E41",
      "Mac-4B7AC7E43945597E", "Mac-4B682C642B45593E", "Mac-5A49A77366F81C72", "Mac-06F11F11946D27C5", "Mac-06F11FD93F0323C5"
    ] + [
      "Mac-6F01561E16C75D06", "Mac-7BA5B2D9E42DDD94", "Mac-7BA5B2DFE22DDD8C", "Mac-7DF2A3B5E5D671ED", "Mac-7DF21CB3ED6977E5",
      "Mac-9AE82516C7C6B903", "Mac-9F18E312C5C2BF0B", "Mac-27AD2F918AE68F61", "Mac-27ADBB7B4CEE8E61", "Mac-031AEE4D24BFF0B1"
    ] + [
      "Mac-031B6874CF7F642A", "Mac-35C1E88140C3E6CF", "Mac-35C5E08120C7EEAF", "Mac-42FD25EABCABB274", "Mac-53FDB3D8DB8CA971",
      "Mac-65CE76090165799A", "Mac-66E35819EE2D0D05", "Mac-66F35F19FE2A0D05", "Mac-77EB7D7DAF985301", "Mac-77F17D7DA9285301"
    ] + [
      "Mac-81E3E92DD6088272", "Mac-90BE64C3CB5A9AEB", "Mac-112B0A653D3AAB9C", "Mac-189A3D4F975D5FFC", "Mac-226CB3C6A851A671",
      "Mac-473D31EABEB93F9B", "Mac-551B86E5744E2388", "Mac-747B1AEFF11738BE", "Mac-827FAC58A8FDFA22", "Mac-827FB448E656EC26"
    ] + [
      "Mac-937A206F2EE63C01", "Mac-937CB26E2E02BB01", "Mac-9394BDF4BF862EE7", "Mac-50619A408DB004DA", "Mac-63001698E7A34814",
      "Mac-112818653D3AABFC", "Mac-A5C67F76ED83108C", "Mac-A369DDC4E67F1C45", "Mac-AA95B1DDAB278B95", "Mac-AFD8A9D944EA4843"
    ] + [
      "Mac-B809C3757DA9BB8D", "Mac-B4831CEBD52A0C4C", "Mac-BE0E8AC46FE800CC", "Mac-BE088AF8C5EB4FA2", "Mac-C3EC7CD22292981F",
      "Mac-C6F71043CEAA02A6", "Mac-CAD6701F7CEA0921", "Mac-CF21D135A7D34AA6", "Mac-DB15BD556843C820", "Mac-E43C1C25D4880AD6"
    ] + [
      "Mac-EE2EBD4B90B839A8", "Mac-F60DEB81FF30ACF6", "Mac-F65AE981FFA204ED", "Mac-F305150B0C7DEEEF", "Mac-FA842E06C61E91C5",
      "Mac-FC02E91DDD3FA6A4", "Mac-FFE5EF870D7BA81A"
    ]

  /** Nothing on the deny list is empty, so a Mac whose model cannot be read
      passes `is_supported_model()`. */
  lemma EmptyModelPasses()
    ensures IsNotDenied([], NonSupportedModels)
  {
    assert forall i :: 0 <= i < |NonSupportedModels| ==> NonSupportedModels[i] != [];
  }

  /** `fact()`: a virtual machine is always eligible; any other Mac is eligible
      when its model is not excluded, its board id is supported and it runs
      Darwin 13 through 18 (macOS 10.9 through 10.14). */
  function Fact(cpuFeatures: string, modelRaw: string, boardRaw: string, darwinMajor: int): (r: FactMap)
    ensures r.Keys == {FactKey}
    ensures HasVmmFeature(cpuFeatures) ==> r[FactKey] == Bool(true)
    ensures !HasVmmFeature(cpuFeatures) ==>
      (r[FactKey] == Bool(true) <==>
        && IoKeyStringValue(modelRaw) !in NonSupportedModels
        && IoKeyStringValue(boardRaw) in PlatformSupportValues
        && 13 <= darwinMajor <= 18)
    ensures r[FactKey] == Bool(false) || r[FactKey] == Bool(true)
  {
    if HasVmmFeature(cpuFeatures) then BoolFact(FactKey, true)
    else if IsNotDenied(IoKeyStringValue(modelRaw), NonSupportedModels)
         && IoKeyStringValue(boardRaw) in PlatformSupportValues
         && InVersionWindow(darwinMajor, 9, 15)
    then BoolFact(FactKey, true)
    else BoolFact(FactKey, false)
  }

  /** All three physical conditions are needed: dropping any one of them makes
      a non-virtual Mac ineligible. */
  lemma EachConditionNeeded(cpuFeatures: string, modelRaw: string, boardRaw: string, darwinMajor: int)
    requires !HasVmmFeature(cpuFeatures)
    requires || IoKeyStringValue(modelRaw) in NonSupportedModels
             || IoKeyStringValue(boardRaw) !in PlatformSupportValues
             || darwinMajor < 13 || darwinMajor > 18
    ensures Fact(cpuFeatures, modelRaw, boardRaw, darwinMajor)[FactKey] == Bool(false)
  {
  }
}

=== FILE: classifiers.dfy ===
/** How the two classifiers of the system_profiler report relate. */
module Classifiers {
  import opened Results
  import opened Platform
  import opened Profiler
  import PhysicalOrVirtual
  import MachineType

  /** On a virtual machine whose report both producers read successfully,
      `physical_or_virtual` and `machine_type` agree on VMware and on
      Parallels: each names the vendor exactly when the other does. */
  lemma AgreeOnVendors(cpuFeatures: string, dataTypes: seq<DataType>)
    requires HasVmmFeature(cpuFeatures)
    requires MachineType.Classify(Parsed(dataTypes)).Success?
    ensures PhysicalOrVirtual.Classify(cpuFeatures, Parsed(dataTypes)).Success?
    ensures var pv := PhysicalOrVirtual.Classify(cpuFeatures, Parsed(dataTypes)).value;
      var mt := MachineType.Classify(Parsed(dataTypes)).value;
      && (pv == "vmware" <==> mt == "vmware")
      && (pv == "parallels" ==> mt == "parallels")
      && (mt == "parallels" ==> pv == "parallels" || pv == "virtualbox")
  {
  }

  /** `machine_type` has no VirtualBox answer: it reports a VirtualBox guest
      as `physical` or `parallels`. */
  lemma VirtualBoxIsNotRecognised(cpuFeatures: string, dataTypes: seq<DataType>)
    requires HasVmmFeature(cpuFeatures)
    requires PhysicalOrVirtual.Classify(cpuFeatures, Parsed(dataTypes)) == Success("virtualbox")
    requires MachineType.Classify(Parsed(dataTypes)).Success?
    ensures MachineType.Classify(Parsed(dataTypes)).value in {"physical", "parallels"}
  {
  }
}

=== FILE: crashplan_username.dfy ===
/** The `crashplan_username` fact: the account name recorded in CrashPlan's
    identity file. Reading the file is a host effect; the model receives its
    contents, or `None` when opening or reading it raises IOError/OSError. */
module CrashPlanUsername {
  import opened Results
  import opened Text
  import opened Facts

  const FactKey := "crashplan_username"
  const Prefix := "username="

  /** `lines[i]` is the first line that starts with `username=`. */
  predicate FirstUsernameLine(lines: seq<string>, i: int) {
    && 0 <= i < |lines|
    && StartsWith(lines[i], Prefix)
    && forall j :: 0 <= j < i ==> !StartsWith(lines[j], Prefix)
  }

  /** The scan of `identity.readlines()`: the first `username=` line gives
      `line.partition('=')[2].rstrip()` and stops the scan; with no such line
      the name stays empty. */
  function ScanLines(lines: seq<string>): (name: string)
    ensures name == [] || !IsSpace(name[|name| - 1])
    decreases |lines|
  {
    if lines == [] then []
    else if StartsWith(lines[0], Prefix) then RStrip(AfterFirst(lines[0], '='))
    else ScanLines(lines[1..])
  }

  /** The scan returns what follows `username=` on the first line that
      starts with it, and `''` when no line does. */
  lemma {:induction false} ScanFindsFirstLine(lines: seq<string>)
    ensures forall i :: FirstUsernameLine(lines, i) ==> ScanLines(lines) == RStrip(lines[i][|Prefix|..])
    ensures (forall i :: 0 <= i < |lines| ==> !StartsWith(lines[i], Prefix)) ==> ScanLines(lines) == []
    decreases |lines|
  {
    if lines != [] {
      if StartsWith(lines[0], Prefix) {
        PartitionAfterPrefix(lines[0]);
        assert forall i :: FirstUsernameLine(lines, i) ==> i == 0;
      } else {
        ScanFindsFirstLine(lines[1..]);
        forall i | FirstUsernameLine(lines, i) ensures FirstUsernameLine(lines[1..], i - 1) {
          assert i > 0;
        }
        assert forall i :: 0 <= i < |lines[1..]| ==> lines[1..][i] == lines[i + 1];
      }
    }
  }

  /** On a `username=` line, `partition('=')[2]` is exactly what follows the
      prefix: the prefix's own `=` is the first one. */
  lemma PartitionAfterPrefix(line: string)
    requires StartsWith(line, Prefix)
    ensures AfterFirst(line, '=') == line[|Prefix|..]
  {
    assert line[..|Prefix|] == Prefix;
    assert line[|Prefix| - 1] == '=';
    assert '=' !in line[..|Prefix| - 1];
  }

  /** The name read from the identity file, or `''` when it cannot be read.
      Lines are split at `\n`; the newline `readlines()` keeps on each line is
      whitespace that the final `rstrip()` removes in any case. */
  function Username(identity: Option<string>): (name: string)
    ensures identity.None? ==> name == []
    ensures identity.Some? ==> name == ScanLines(Split(identity.value, '\n'))
  {
    match identity
      case None => []
      case Some(contents) => ScanLines(Split(contents, '\n'))
  }

  /** `fact()`: never fails. */
  function Fact(identity: Option<string>): (r: FactMap)
    ensures r.Keys == {FactKey}
    ensures r[FactKey] == Str(Username(identity))
  {
    map[FactKey := Str(Username(identity))]
  }

  /** Only the first `username=` line counts: whatever follows it is ignored. */
  lemma {:induction false} LaterLinesIgnored(before: seq<string>, line: string, after: seq<string>)
    requires forall j :: 0 <= j < |before| ==> !StartsWith(before[j], Prefix)
    requires StartsWith(line, Prefix)
    ensures ScanLines(before + [line] + after) == RStrip(line[|Prefix|..])
  {
    var lines := before + [line] + after;
    assert FirstUsernameLine(lines, |before|);
    ScanFindsFirstLine(lines);
  }

  /** The name is everything after the first `=`, whatever it contains
      (another `=` included), up to the trailing whitespace. */
  lemma NameFollowsPrefix(name: string, padding: string)
    requires name == [] || !IsSpace(name[|name| - 1])
    requires forall i :: 0 <= i < |padding| ==> IsSpace(padding[i])
    ensures ScanLines([Prefix + name + padding]) == name
  {
    var line := Prefix + name + padding;
    assert line[..|Prefix|] == Prefix;
    assert FirstUsernameLine([line], 0);
    ScanFindsFirstLine([line]);
    assert ScanLines([line]) == RStrip(line[|Prefix|..]);
    assert line[|Prefix|..] == name + padding;
    TrimEndRemovesSuffix(name, padding, IsSpace);
    assert RStrip(name + padding) == name;
  }
}

=== FILE: engine.dfy ===
/** The fact-aggregation engine of `munki_facts.py`: discover the producer
    modules in the `facts` directory, call each one's `fact()` inside a
    catch-all, fold the returned mappings into one, turn None values into empty
    strings, and overlay the result on the prior ConditionalItems document.

    The directory listing, each producer's behaviour and the prior document
    are parameters: the engine itself is a pure function of them.
 */
module Engine {
  import opened Results
  import opened Text
  import opened Facts

  // ---------------------------------------------------------------------------
  // Discovery

  /** Every character of `s` is a dot. */
  predicate DotsOnly(s: string) {
    forall i :: 0 <= i < |s| ==> s[i] == '.'
  }

  /** The position of the last `c` in `s`. */
  function LastIndexOf(s: string, c: char): (r: Option<nat>)
    ensures r.None? <==> c !in s
    ensures r.Some? ==> r.value < |s| && s[r.value] == c && c !in s[r.value + 1..]
    decreases |s|
  {
    if s == [] then None
    else if s[|s| - 1] == c then Some(|s| - 1)
    else
      assert s == s[..|s| - 1] + [s[|s| - 1]];
      LastIndexOf(s[..|s| - 1], c)
  }

  /** `os.path.splitext` on a bare file name: the extension is the text from
      the last dot on, unless only dots precede that dot (so ".py" has no
      extension). */
  function SplitExt(name: string): (parts: (string, string))
    ensures parts.0 + parts.1 == name
    ensures parts.1 != [] ==> parts.1[0] == '.' && '.' !in parts.1[1..] && !DotsOnly(parts.0)
    ensures parts.1 == [] && '.' in name ==>
              exists dot :: 0 <= dot < |name| && name[dot] == '.' && '.' !in name[dot + 1..] && DotsOnly(name[..dot])
  {
    match LastIndexOf(name, '.')
    case None => (name, [])
    case Some(dot) =>
      if DotsOnly(name[..dot]) then (name, [])
      else (name[..dot], name[dot..])
  }

  /** `os.path.splitext(name)[0]`. */
  function Stem(name: string): string {
    SplitExt(name).0
  }

  /** The file-name test of the discovery comprehension. */
  predicate IsProducerFile(name: string) {
    EndsWith(name, ".py") && name != "__init__.py"
  }

  /** A producer file's stem is its name without ".py", except for a name that
      is only dots before ".py", which `splitext` leaves whole. */
  lemma StemOfProducerFile(name: string)
    requires IsProducerFile(name)
    ensures !DotsOnly(name[..|name| - 3]) ==> Stem(name) + ".py" == name
    ensures DotsOnly(name[..|name| - 3]) ==> Stem(name) == name
  {
    var n := |name| - 3;
    assert name[n..] == ".py";
    assert name[n] == '.' && '.' !in name[n + 1..];
    assert LastIndexOf(name, '.') == Some(n);
  }

  /** `name` is the stem of some producer file of `listing`. */
  predicate StemOfListed(listing: seq<string>, name: string) {
    exists j :: 0 <= j < |listing| && IsProducerFile(listing[j]) && name == Stem(listing[j])
  }

  /** The producer names found in a directory listing, in listing order. */
  function Discover(listing: seq<string>): (names: seq<string>)
    ensures |names| <= |listing|
    ensures forall k :: 0 <= k < |names| ==> StemOfListed(listing, names[k])
    ensures forall j :: 0 <= j < |listing| && IsProducerFile(listing[j]) ==> Stem(listing[j]) in names
    decreases |listing|
  {
    if listing == [] then []
    else
      var rest := Discover(listing[1..]);
      DiscoverStep(listing, listing[1..], rest);
      (if IsProducerFile(listing[0]) then [Stem(listing[0])] else []) + rest
  }

  /** The inductive step of `Discover`'s contract: names found in the tail of
      a listing are found at a shifted position of the whole listing. */
  lemma DiscoverStep(listing: seq<string>, tail: seq<string>, rest: seq<string>)
    requires listing != [] && tail == listing[1..]
    requires forall k :: 0 <= k < |rest| ==> StemOfListed(tail, rest[k])
    ensures forall k :: 0 <= k < |rest| ==> StemOfListed(listing, rest[k])
  {
    forall k | 0 <= k < |rest| ensures StemOfListed(listing, rest[k]) {
      var j :| 0 <= j < |tail| && IsProducerFile(tail[j]) && rest[k] == Stem(tail[j]);
      assert listing[j + 1] == tail[j];
    }
  }

  /** Discovery keeps listing order: the names of a concatenated listing are
      the names of its two parts, one after the other. */
  lemma {:induction false} DiscoverAppend(a: seq<string>, b: seq<string>)
    ensures Discover(a + b) == Discover(a) + Discover(b)
    decreases |a|
  {
    if a == [] {
      assert a + b == b;
    } else {
      assert (a + b)[1..] == a[1..] + b;
      DiscoverAppend(a[1..], b);
    }
  }

  // ---------------------------------------------------------------------------
  // Invocation

  /** What calling `load_source(...)` and then `fact()` did: returned a
      value (a dictionary, or None) or raised. */
  datatype Call = Returned(result: Option<FactMap>) | Raised(error: PyError)

  /** The outcome of `facts.update(module.fact())` inside the catch-all: a
      returned None makes `update` raise TypeError. */
  function Invoke(call: Call): (outcome: Result<FactMap>)
    ensures outcome.Success? <==> call.Returned? && call.result.Some?
    ensures outcome.Success? ==> outcome.value == call.result.value
    ensures call == Returned(None) ==> outcome == Failure(TypeError)
  {
    match call
    case Returned(Some(m)) => Success(m)
    case Returned(None) => Failure(TypeError)
    case Raised(e) => Failure(e)
  }

  // ---------------------------------------------------------------------------
  // Fold

  /** The outcome at `i` succeeded and emitted key `k`. */
  predicate Emits(outcomes: seq<Result<FactMap>>, i: int, k: string) {
    0 <= i < |outcomes| && outcomes[i].Success? && k in outcomes[i].value
  }

  /** No outcome emitted any key. */
  ghost predicate NothingEmitted(outcomes: seq<Result<FactMap>>) {
    forall i, k :: !Emits(outcomes, i, k)
  }

  /** The `facts.update(...)` loop: successful mappings applied in order,
      failed producers skipped. */
  function Merge(outcomes: seq<Result<FactMap>>): (facts: FactMap)
    ensures forall k :: k in facts <==> exists i :: Emits(outcomes, i, k)
    decreases |outcomes|
  {
    if outcomes == [] then map[]
    else
      var n := |outcomes| - 1;
      var before := Merge(outcomes[..n]);
      var facts := if outcomes[n].Success? then before + outcomes[n].value else before;
      MergeStep(outcomes, outcomes[..n], before, facts);
      facts
  }

  /** The inductive step of `Merge`'s contract: the keys after one more
      `update` are the keys emitted by some outcome so far. */
  lemma MergeStep(outcomes: seq<Result<FactMap>>, prefix: seq<Result<FactMap>>, before: FactMap, facts: FactMap)
    requires outcomes != [] && prefix == outcomes[..|outcomes| - 1]
    requires forall k :: k in before <==> exists i :: Emits(prefix, i, k)
    requires facts == if outcomes[|outcomes| - 1].Success? then before + outcomes[|outcomes| - 1].value else before
    ensures forall k :: k in facts <==> exists i :: Emits(outcomes, i, k)
  {
    var n := |outcomes| - 1;
    forall k ensures k in facts <==> exists i :: Emits(outcomes, i, k) {
      if k in before {
        var i :| Emits(prefix, i, k);
        assert Emits(outcomes, i, k);
      } else if k in facts {
        assert Emits(outcomes, n, k);
      }
      if exists i :: Emits(outcomes, i, k) {
        var i :| Emits(outcomes, i, k);
        if i < n {
          assert Emits(prefix, i, k);
        }
      }
    }
  }

  /** Outcome `i` is the last one that emitted `k`. */
  predicate LastEmitter(outcomes: seq<Result<FactMap>>, i: int, k: string) {
    Emits(outcomes, i, k) && forall j :: i < j < |outcomes| ==> !Emits(outcomes, j, k)
  }

  /** Last writer wins: a key takes the value of the last successful producer
      that emitted it. */
  lemma {:induction false} LastWriterWins(outcomes: seq<Result<FactMap>>, i: int, k: string)
    requires Emits(outcomes, i, k)
    requires forall j :: i < j < |outcomes| ==> !Emits(outcomes, j, k)
    ensures k in Merge(outcomes) && Merge(outcomes)[k] == outcomes[i].value[k]
    decreases |outcomes|
  {
    var n := |outcomes| - 1;
    if i < n {
      assert !Emits(outcomes, n, k);
      assert forall j :: i < j < n ==> (Emits(outcomes[..n], j, k) <==> Emits(outcomes, j, k));
      LastWriterWins(outcomes[..n], i, k);
    }
  }

  /** Folding a concatenation is overlaying the two folds. */
  lemma {:induction false} MergeAppend(a: seq<Result<FactMap>>, b: seq<Result<FactMap>>)
    ensures Merge(a + b) == Merge(a) + Merge(b)
    decreases |b|
  {
    if b == [] {
      assert a + b == a;
    } else {
      var n := |b| - 1;
      assert (a + b)[..|a + b| - 1] == a + b[..n];
      MergeAppend(a, b[..n]);
    }
  }

  /** A producer that raised contributes nothing, wherever it stands. */
  lemma FailureContributesNothing(a: seq<Result<FactMap>>, e: PyError, b: seq<Result<FactMap>>)
    ensures Merge(a + [Failure(e)] + b) == Merge(a + b)
  {
    MergeAppend(a + [Failure(e)], b);
    MergeAppend(a, [Failure(e)]);
    MergeAppend(a, b);
    var f: seq<Result<FactMap>> := [Failure(e)];
    assert Merge(f) == map[] by {
      assert f[..0] == [];
    }
  }

  // ---------------------------------------------------------------------------
  // Normalisation

  /** What a fact value is stored as: None becomes the empty string. */
  function Stored(v: Value): Value {
    if v == Null then Str("") else v
  }

  /** The loop that replaces every None value with the empty string. */
  function Normalize(facts: FactMap): (r: FactMap)
    ensures r.Keys == facts.Keys
    ensures forall k :: k in r ==> r[k] != Null
    ensures forall k :: k in facts && facts[k] == Null ==> r[k] == Str("")
    ensures forall k :: k in facts && facts[k] != Null ==> r[k] == facts[k]
  {
    map k | k in facts :: Stored(facts[k])
  }

  /** Normalising twice changes nothing more. */
  lemma NormalizeIdempotent(facts: FactMap)
    ensures Normalize(Normalize(facts)) == Normalize(facts)
  {
  }

  // ---------------------------------------------------------------------------
  // Document overlay

  /** `conditional_items.update(facts)` on the prior document; a prior that
      is absent or unreadable counts as the empty dictionary. */
  function Overlay(prior: Option<FactMap>, facts: FactMap): (doc: FactMap)
    ensures doc.Keys == prior.GetOr(map[]).Keys + facts.Keys
    ensures forall k :: k in facts ==> doc[k] == facts[k]
    ensures forall k :: k in prior.GetOr(map[]) && k !in facts ==> doc[k] == prior.value[k]
  {
    prior.GetOr(map[]) + facts
  }

  /** Overlaying the same facts on the result again changes nothing. */
  lemma OverlayIdempotent(prior: Option<FactMap>, facts: FactMap)
    ensures Overlay(Some(Overlay(prior, facts)), facts) == Overlay(prior, facts)
  {
  }

  // ---------------------------------------------------------------------------
  // One run

  /** What a run does to ConditionalItems.plist: nothing, or write `document`. */
  datatype RunResult = Skipped | Written(document: FactMap)

  /** Everything `main()` computes after discovery: fold, normalise and, when
      any fact was produced, overlay on the prior document. */
  function Apply(outcomes: seq<Result<FactMap>>, prior: Option<FactMap>): (r: RunResult)
    ensures r.Skipped? <==> NothingEmitted(outcomes)
    ensures r.Written? ==> forall k :: k in prior.GetOr(map[]) ==> k in r.document
    ensures r.Written? ==> forall k :: k in prior.GetOr(map[]) && (forall i :: !Emits(outcomes, i, k))
                             ==> r.document[k] == prior.value[k]
    ensures r.Written? ==> forall k :: (exists i :: Emits(outcomes, i, k)) ==> k in r.document && r.document[k] != Null
    ensures r.Written? ==> forall k :: k in r.document <==> k in prior.GetOr(map[]) || exists i :: Emits(outcomes, i, k)
    ensures r.Written? ==> forall i, k :: LastEmitter(outcomes, i, k) ==>
      k in r.document && r.document[k] == Stored(outcomes[i].value[k])
  {
    var facts := Merge(outcomes);
    forall i, k | LastEmitter(outcomes, i, k) ensures k in facts && facts[k] == outcomes[i].value[k] {
      LastWriterWins(outcomes, i, k);
    }
    if facts == map[] then
      assert NothingEmitted(outcomes) by {
        forall i, k ensures !Emits(outcomes, i, k) {
          assert k !in facts;
        }
      }
      Skipped
    else
      assert exists k :: k in facts;
      Written(Overlay(prior, Normalize(facts)))
  }

  /** Calling the producer returned a dictionary holding key `k`. */
  predicate Yields(call: Call, k: string) {
    call.Returned? && call.result.Some? && k in call.result.value
  }

  /** No producer in `names` returned a dictionary with any key. */
  ghost predicate NothingYielded(names: seq<string>, host: string -> Call) {
    forall j, k :: 0 <= j < |names| ==> !Yields(host(names[j]), k)
  }

  /** Producer `names[j]` is the last one whose dictionary holds `k`. */
  predicate LastYielder(names: seq<string>, host: string -> Call, j: int, k: string) {
    && 0 <= j < |names| && Yields(host(names[j]), k)
    && forall l :: j < l < |names| ==> !Yields(host(names[l]), k)
  }

  /** A whole run of `main()`: discover the producers in `listing`, call each
      through `host`, and store the merged facts. */
  function Run(listing: seq<string>, host: string -> Call, prior: Option<FactMap>): (r: RunResult)
    ensures r.Skipped? <==> NothingYielded(Discover(listing), host)
    ensures r.Written? ==> forall k :: k in r.document <==>
      k in prior.GetOr(map[]) || exists j :: 0 <= j < |Discover(listing)| && Yields(host(Discover(listing)[j]), k)
    ensures r.Written? ==> forall k :: k in prior.GetOr(map[]) && (forall j :: 0 <= j < |Discover(listing)| ==> !Yields(host(Discover(listing)[j]), k))
                             ==> r.document[k] == prior.value[k]
    ensures r.Written? ==> forall j, k :: LastYielder(Discover(listing), host, j, k) ==>
      k in r.document && r.document[k] == Stored(host(Discover(listing)[j]).result.value[k])
  {
    var names := Discover(listing);
    var outcomes := InvokeAll(names, host);
    forall j, k | LastYielder(names, host, j, k) ensures LastEmitter(outcomes, j, k) {
      assert Emits(outcomes, j, k);
    }
    Apply(outcomes, prior)
  }

  /** Calls every discovered producer in order. */
  function InvokeAll(names: seq<string>, host: string -> Call): (outcomes: seq<Result<FactMap>>)
    ensures |outcomes| == |names|
    ensures forall j, k :: Emits(outcomes, j, k) <==> 0 <= j < |names| && Yields(host(names[j]), k)
    ensures NothingEmitted(outcomes) <==> NothingYielded(names, host)
  {
    seq(|names|, i requires 0 <= i < |names| => Invoke(host(names[i])))
  }

  /** Running again with the same facts leaves the written document as it is. */
  lemma ApplyIdempotent(outcomes: seq<Result<FactMap>>, prior: Option<FactMap>)
    requires Apply(outcomes, prior).Written?
    ensures Apply(outcomes, Some(Apply(outcomes, prior).document)) == Apply(outcomes, prior)
  {
    OverlayIdempotent(prior, Normalize(Merge(outcomes)));
  }

  // ---------------------------------------------------------------------------
  // Worked examples

  /** Producers {a: "1"}, a raise, and {b: None} merge to {a: "1", b: ""}. */
  lemma MixedOutcomesExample()
    ensures Apply([Success(map["a" := Str("1")]), Failure(KeyError), Success(map["b" := Null])], None)
            == Written(map["a" := Str("1"), "b" := Str("")])
  {
    var os: seq<Result<FactMap>> := [Success(map["a" := Str("1")]), Failure(KeyError), Success(map["b" := Null])];
    assert os[..2][..1][..0] == [];
    assert os[..2][..1] == [Success(map["a" := Str("1")])];
    assert os[..2] == [Success(map["a" := Str("1")]), Failure(KeyError)];
    assert Merge(os[..2][..1]) == map["a" := Str("1")];
    assert Merge(os[..2]) == map["a" := Str("1")];
    assert Merge(os) == map["a" := Str("1"), "b" := Null];
    var n := Normalize(Merge(os));
    assert n == map["a" := Str("1"), "b" := Str("")];
    assert Merge(os) != map[] by {
      assert "a" in Merge(os);
    }
    assert Overlay(None, n) == n;
  }

  /** A run that produces no fact leaves the prior document alone. */
  lemma EmptyRunExample(prior: Option<FactMap>)
    ensures Apply([Failure(IndexError)], prior) == Skipped
  {
    var f: seq<Result<FactMap>> := [Failure(IndexError)];
    assert f[..0] == [];
  }
}

=== FILE: facts.dfy ===
/** The values a fact producer may emit, and the mapping every producer's
    `fact()` returns. */
module Facts {

  /** A fact value: Python's None, a string, a boolean, a list of strings or a
      dictionary of strings. */
  datatype Value =
    | Null
    | Str(s: string)
    | Bool(b: bool)
    | StrList(items: seq<string>)
    | StrMap(entries: map<string, string>)

  /** A `fact()` result: fact name to value. */
  type FactMap = map<string, Value>
}

=== FILE: group_memberships.dfy ===
/** The `group_memberships` fact: which of the configured directory groups
    the likeliest user of the machine appears in. The `id <user>` output is a
    parameter, as are the `ac` reports `get_users()` reads. */
module GroupMemberships {
  import opened Results
  import opened Text
  import opened Facts
  import opened Seqs
  import Users

  const FactKey := "group_memberships"

  /** The groups the site asks about. */
  const SearchGroups := ["SFO-MacAdmins"]

  /** The loop over `search_groups`: each group whose name occurs anywhere in
      the `id` output, in configuration order. */
  function FoundGroups(idOutput: string): (found: seq<string>)
    ensures IsSubseq(found, SearchGroups)
    ensures forall g :: g in found <==> g in SearchGroups && Contains(idOutput, g)
  {
    var found := (g: string) => Contains(idOutput, g);
    FilterKeeps(SearchGroups, found);
    Filter(SearchGroups, found)
  }

  /** The body of `fact()` after `get_users()` has returned `ranked`: the
      first user is asked about; with no user at all `[0]` raises IndexError,
      and a failure of `get_users()` passes through. */
  function QueryTopUser(ranked: Result<seq<string>>, idOutput: string -> string): (r: Result<FactMap>)
    ensures r.Success? <==> ranked.Success? && ranked.value != []
    ensures ranked.Failure? ==> r == Failure(ranked.error)
    ensures ranked.Success? && ranked.value == [] ==> r == Failure(IndexError)
    ensures r.Success? ==> r.value.Keys == {FactKey} && r.value[FactKey] == StrList(FoundGroups(idOutput(ranked.value[0])))
  {
    match ranked
      case Failure(e) => Failure(e)
      case Success(users) =>
        if users == [] then Failure(IndexError)
        else Success(map[FactKey := StrList(FoundGroups(idOutput(users[0])))])
  }

  /** `fact()`: the user with the most connect time is asked about. */
  function Fact(acTotals: string, acDaily: string -> string, parse: string -> Option<real>,
                idOutput: string -> string): (r: Result<FactMap>)
    ensures var users := Users.GetUsers(acTotals, acDaily, parse, "connect_time");
      r.Success? <==> users.Success? && users.value != []
    ensures var users := Users.GetUsers(acTotals, acDaily, parse, "connect_time");
      users.Failure? ==> r == Failure(users.error)
    ensures var users := Users.GetUsers(acTotals, acDaily, parse, "connect_time");
      users.Success? && users.value == [] ==> r == Failure(IndexError)
    ensures var users := Users.GetUsers(acTotals, acDaily, parse, "connect_time");
      r.Success? ==> r.value.Keys == {FactKey} && r.value[FactKey] == StrList(FoundGroups(idOutput(users.value[0])))
  {
    QueryTopUser(Users.GetUsers(acTotals, acDaily, parse, "connect_time"), idOutput)
  }

  /** The connect-time ranking never ends the process: `get_users()` can only
      fail on an `ac` report it cannot read. */
  lemma ConnectTimeRankingHasNoExit(acTotals: string, acDaily: string -> string, parse: string -> Option<real>)
    ensures var users := Users.GetUsers(acTotals, acDaily, parse, "connect_time");
      users.Failure? ==> users.error == IndexError || users.error == ValueError
  {
  }

  /** The user asked about has at least as much connect time as every user
      `ac` reports. */
  lemma {:induction false} QueriedUserIsTopUser(acTotals: string, acDaily: string -> string, parse: string -> Option<real>, u: string)
    requires Users.GetUsers(acTotals, acDaily, parse, "connect_time").Success?
    requires Users.GetUsers(acTotals, acDaily, parse, "connect_time").value != []
    requires u in Users.UsersFromAc(acTotals).value
    ensures var users := Users.UsersFromAc(acTotals).value;
      var info := Users.UsersInfo(users, acDaily, parse).value;
      var top := Users.GetUsers(acTotals, acDaily, parse, "connect_time").value[0];
      && u in info && top in info
      && info[u].connectTime <= info[top].connectTime
  {
    var users := Users.UsersFromAc(acTotals).value;
    var info := Users.UsersInfo(users, acDaily, parse).value;
    var ranked := Users.GetUsers(acTotals, acDaily, parse, "connect_time").value;
    Users.RankedUsersDistinct(acTotals, acDaily, parse, "connect_time");
    var k :| 0 <= k < |ranked| && ranked[k] == u;
    var key := Users.Metric(info, "connect_time");
    assert k > 0 ==> key(ranked[0]) >= key(ranked[k]);
  }
}

=== FILE: local_user_dirs.dfy ===
/** The `local_user_dirs` fact: the home directories under `/Users`, without
    the system's shared folders and hidden entries. The directory listing,
    in the order `os.listdir` returns it, is a parameter. */
module LocalUserDirs {
  import opened Text
  import opened Facts
  import opened Seqs

  const FactKey := "local_user_dirs"

  /** Directories that are never someone's home. */
  const SkipNames := ["Deleted Users", "Shared", "admin"]

  predicate Kept(item: string) {
    item !in SkipNames && !StartsWith(item, ".")
  }

  /** The list comprehension over the listing. */
  function UserDirs(listing: seq<string>): (dirs: seq<string>)
    ensures IsSubseq(dirs, listing)
    ensures forall d :: d in dirs <==> d in listing && d != "Deleted Users" && d != "Shared" && d != "admin" && !StartsWith(d, ".")
    ensures forall d :: multiset(dirs)[d] == if Kept(d) then multiset(listing)[d] else 0
  {
    FilterKeeps(listing, Kept);
    Filter(listing, Kept)
  }

  /** `fact()`: never fails. */
  function Fact(listing: seq<string>): (r: FactMap)
    ensures r.Keys == {FactKey}
    ensures r[FactKey] == StrList(UserDirs(listing))
  {
    map[FactKey := StrList(UserDirs(listing))]
  }

  /** A listing that has already been filtered passes through unchanged. */
  lemma UserDirsIdempotent(listing: seq<string>)
    ensures UserDirs(UserDirs(listing)) == UserDirs(listing)
  {
    FilterIdempotent(listing, Kept);
  }

  /** Each entry is judged on its own: filtering a listing in two parts and
      joining the results is filtering the whole. */
  lemma UserDirsAppend(a: seq<string>, b: seq<string>)
    ensures UserDirs(a + b) == UserDirs(a) + UserDirs(b)
  {
    FilterAppend(a, b, Kept);
  }
}

=== FILE: machine_type.dfy ===
/** The `machine_type` fact: a coarser classifier over the same
    system_profiler report, which reads both lookups up front and lets a
    missing key fail the producer. */
module MachineType {
  import opened Results
  import opened Text
  import opened Facts
  import opened Profiler

  const FactKey := "machine_type"

  /** Every value the fact can take. */
  const Kinds := ["physical", "vmware", "parallels", "Unknown"]

  /** The classification inside `fact()`: the boot ROM version and then the
      ethernet vendor id are looked up before either is examined, so a failure
      of either lookup fails the producer; only IOError/OSError from running
      the tool is caught, as `Unknown`. */
  function Classify(report: Report): (r: Result<string>)
    ensures r.Success? ==> r.value in Kinds
    ensures r == Success("Unknown") <==> report.Unavailable?
    ensures report.Unparsable? ==> r == Failure(ExpatError)
    ensures report.Parsed? ==>
      (r.Success? <==>
        && Lookup(report.dataTypes, Hardware, BootRomVersion).Success?
        && Lookup(report.dataTypes, Ethernet, EthernetVendorId).Success?)
    ensures r.Failure? ==> r.error in {ExpatError, IndexError, KeyError}
  {
    match report
      case Unavailable => Success("Unknown")
      case Unparsable => Failure(ExpatError)
      case Parsed(dataTypes) =>
        var bootRom :- Lookup(dataTypes, Hardware, BootRomVersion);
        var vendorId :- Lookup(dataTypes, Ethernet, EthernetVendorId);
        if Contains(bootRom, "VMW") then Success("vmware")
        else if Contains(vendorId, "0x1ab8") then Success("parallels")
        else Success("physical")
  }

  /** `fact()`: the one-entry mapping, or the uncaught exception. */
  function Fact(report: Report): (r: Result<FactMap>)
    ensures r.Success? <==> Classify(report).Success?
    ensures r.Success? ==> r.value.Keys == {FactKey} && r.value[FactKey] == Str(Classify(report).value)
    ensures r.Failure? ==> r.error == Classify(report).error
  {
    var kind :- Classify(report);
    Success(map[FactKey := Str(kind)])
  }

  /** A missing `boot_rom_version` fails the producer even when the vendor
      id alone would have decided the answer. */
  lemma MissingBootRomFails(dataTypes: seq<DataType>)
    requires Lookup(dataTypes, Hardware, BootRomVersion) == Failure(KeyError)
    ensures Fact(Parsed(dataTypes)) == Failure(KeyError)
  {
  }

  /** The Parallels answer needs a boot ROM that does not name VMware and a
      vendor id with Parallels' PCI vendor number. */
  lemma ParallelsIffVendorId(dataTypes: seq<DataType>)
    ensures Classify(Parsed(dataTypes)) == Success("parallels") <==>
      && Lookup(dataTypes, Hardware, BootRomVersion).Success?
      && Lookup(dataTypes, Ethernet, EthernetVendorId).Success?
      && !Contains(Lookup(dataTypes, Hardware, BootRomVersion).value, "VMW")
      && Contains(Lookup(dataTypes, Ethernet, EthernetVendorId).value, "0x1ab8")
  {
  }
}

=== FILE: macos_upgrade.dfy ===
/** The `macos_upgrade_supported` producer: one fact per macOS release in its
    table, `<name>_upgrade_supported`, true when this Mac is a virtual machine
    or when its model is on that release's list and it runs an older major
    version than the release.

    Host inputs: the macOS major version from `platform.mac_ver()`, the
    `kern.hv_vmm_present` sysctl read as an integer (absent when its size is
    neither 4 nor 8 bytes), the `machdep.cpu.features` sysctl string, and the
    raw `model` IORegistry value decoded as text.
 */
module MacosUpgrade {
  import opened Results
  import opened Text
  import opened Facts
  import opened Platform

  /** An entry of `MACOS_RELEASES`. */
  datatype Release = Release(name: string, version: int, supportedModels: seq<string>)

  /** The supported models of macOS 15 Sequoia, as the literal is written:
      'Macmini9,1' and 'MacPro7,1' stand on consecutive lines with no comma
      between them, so Python joins them into the single entry
      'Macmini9,1MacPro7,1'. */
  const SequoiaModels: seq<string> :=
    [
      "iMac19,1", "iMac19,2", "iMac20,1", "iMac20,2", "iMac21,1",
      "iMac21,2", "iMacPro1,1", "Mac13,1", "Mac13,2", "Mac14,10"
    ] + [
      "Mac14,12", "Mac14,13", "Mac14,14", "Mac14,15", "Mac14,2",
      "Mac14,3", "Mac14,5", "Mac14,6", "Mac14,7", "Mac14,8"
    ] + [
      "Mac14,9", "Mac15,10", "Mac15,11", "Mac15,12", "Mac15,13",
      "Mac15,3", "Mac15,4", "Mac15,5", "Mac15,6", "Mac15,7"
    ] + [
      "Mac15,8", "Mac15,9", "MacBookAir10,1", "MacBookAir9,1", "MacBookPro15,1",
      "MacBookPro15,2", "MacBookPro15,3", "MacBookPro15,4", "MacBookPro16,1", "MacBookPro16,2"
    ] + [
      "MacBookPro16,3", "MacBookPro16,4", "MacBookPro17,1", "MacBookPro18,1", "MacBookPro18,2",
      "MacBookPro18,3", "MacBookPro18,4", "Macmini8,1", "Macmini9,1" + "MacPro7,1", "VirtualMac2,1"
    ]

  /** The supported models of macOS 14 Sonoma. */
  const SonomaModels: seq<string> :=
    [
      "iMac19,1", "iMac19,2", "iMac20,1", "iMac20,2", "iMac21,1",
      "iMac21,2", "iMacPro1,1", "iSim1,1", "Mac13,1", "Mac13,2"
    ] + [
      "Mac14,10", "Mac14,12", "Mac14,13", "Mac14,14", "Mac14,15",
      "Mac14,2", "Mac14,3", "Mac14,5", "Mac14,6", "Mac14,7"
    ] + [
      "Mac14,8", "Mac14,9", "Mac15,3", "Mac15,4", "Mac15,5",
      "Mac15,6", "Mac15,7", "Mac15,8", "Mac15,9", "MacBookAir10,1"
    ] + [
      "MacBookAir8,1", "MacBookAir8,2", "MacBookAir9,1", "MacBookPro15,1", "MacBookPro15,2",
      "MacBookPro15,3", "MacBookPro15,4", "MacBookPro16,1", "MacBookPro16,2", "MacBookPro16,3"
    ] + [
      "MacBookPro16,4", "MacBookPro17,1", "MacBookPro18,1", "MacBookPro18,2", "MacBookPro18,3",
      "MacBookPro18,4", "Macmini8,1", "Macmini9,1", "MacPro7,1", "VirtualMac2,1"
    ]

  /** The supported models of macOS 13 Ventura. */
  const VenturaModels: seq<string> :=
    [
      "iMac18,1", "iMac18,2", "iMac18,3", "iMac19,1", "iMac19,2",
      "iMac20,1", "iMac20,2", "iMac21,1", "iMac21,2", "iMacPro1,1"
    ] + [
      "iSim1,1", "Mac13,1", "Mac13,2", "Mac14,2", "Mac14,7",
      "MacBook10,1", "MacBookAir10,1", "MacBookAir8,1", "MacBookAir8,2", "MacBookAir9,1"
    ] + [
      "MacBookPro14,1", "MacBookPro14,2", "MacBookPro14,3", "MacBookPro15,1", "MacBookPro15,2",
      "MacBookPro15,3", "MacBookPro15,4", "MacBookPro16,1", "MacBookPro16,2", "MacBookPro16,3"
    ] + [
      "MacBookPro16,4", "MacBookPro17,1", "MacBookPro18,1", "MacBookPro18,2", "MacBookPro18,3",
      "MacBookPro18,4", "Macmini8,1", "Macmini9,1", "MacPro7,1", "VirtualMac2,1"
    ]

  /** `MACOS_RELEASES`, newest first. */
  const MacosReleases: seq<Release> := [
    Release("sequoia", 15, SequoiaModels),
    Release("sonoma", 14, SonomaModels),
    Release("ventura", 13, VenturaModels)
  ]

  /** `release["name"] + '_upgrade_supported'`. */
  function FactName(release: Release): string {
    release.name + "_upgrade_supported"
  }

  /** `is_virtual_machine()` of this producer: from macOS 11 on it asks the
      hypervisor sysctl, where an absent value counts as false; before that it
      looks for the VMM CPU feature flag. */
  predicate IsVirtualMachine(macosMajor: int, hvVmmPresent: Option<int>, cpuFeatures: string) {
    if macosMajor >= 11 then hvVmmPresent.Some? && hvVmmPresent.value != 0
    else HasVmmFeature(cpuFeatures)
  }

  /** The value of one release's fact. */
  predicate Eligible(release: Release, vm: bool, model: string, macosMajor: int) {
    vm || (model in release.supportedModels && macosMajor < release.version)
  }

  /** Some assignment in `pairs` writes key `k`. */
  predicate Keyed(pairs: seq<(string, Value)>, k: string) {
    exists i :: 0 <= i < |pairs| && pairs[i].0 == k
  }

  /** No later assignment in `pairs` writes the key of assignment `i`. */
  predicate LastFor(pairs: seq<(string, Value)>, i: int)
    requires 0 <= i < |pairs|
  {
    forall j :: i < j < |pairs| ==> pairs[j].0 != pairs[i].0
  }

  /** The assignments `facts[key] = value` of `fact()`'s loop, in order,
      starting from an empty dictionary: every key written is present, and
      it holds the value its last assignment wrote. */
  function FromPairs(pairs: seq<(string, Value)>): (facts: FactMap)
    ensures forall i :: 0 <= i < |pairs| ==> pairs[i].0 in facts
    ensures forall i :: 0 <= i < |pairs| && LastFor(pairs, i) ==> facts[pairs[i].0] == pairs[i].1
    decreases |pairs|
  {
    if pairs == [] then map[]
    else
      var init := pairs[..|pairs| - 1];
      var last := pairs[|pairs| - 1];
      assert forall i :: 0 <= i < |init| ==> init[i] == pairs[i];
      FromPairs(init)[last.0 := last.1]
  }

  /** The loop creates no key it did not assign. */
  lemma {:induction false} FromPairsKeys(pairs: seq<(string, Value)>, k: string)
    ensures k in FromPairs(pairs) <==> Keyed(pairs, k)
    decreases |pairs|
  {
    if pairs != [] {
      var init := pairs[..|pairs| - 1];
      var last := pairs[|pairs| - 1];
      FromPairsKeys(init, k);
      if Keyed(pairs, k) && k != last.0 {
        var i :| 0 <= i < |pairs| && pairs[i].0 == k;
        assert init[i].0 == k;
      }
      if Keyed(init, k) {
        var i :| 0 <= i < |init| && init[i].0 == k;
        assert pairs[i].0 == k;
      }
      if k == last.0 {
        assert pairs[|pairs| - 1].0 == k;
      }
    }
  }

  /** The assignments `fact()` makes, one per release of the table. */
  function Assignments(vm: bool, model: string, macosMajor: int): (pairs: seq<(string, Value)>)
    ensures |pairs| == |MacosReleases|
    ensures forall i :: 0 <= i < |pairs| ==>
      pairs[i] == (FactName(MacosReleases[i]), Bool(Eligible(MacosReleases[i], vm, model, macosMajor)))
  {
    seq(|MacosReleases|, i requires 0 <= i < |MacosReleases| =>
      (FactName(MacosReleases[i]), Bool(Eligible(MacosReleases[i], vm, model, macosMajor))))
  }

  /** The three fact names of the table, which are pairwise distinct. */
  lemma TableFactNames()
    ensures |MacosReleases| == 3
    ensures FactName(MacosReleases[0]) == "sequoia_upgrade_supported"
    ensures FactName(MacosReleases[1]) == "sonoma_upgrade_supported"
    ensures FactName(MacosReleases[2]) == "ventura_upgrade_supported"
  {
  }

  /** `fact()`: a key per release of the table, each true exactly when the Mac
      is a virtual machine or runs an older macOS on a model that release
      supports. */
  function Fact(macosMajor: int, hvVmmPresent: Option<int>, cpuFeatures: string, modelRaw: string): (r: FactMap)
    ensures r.Keys == {"sequoia_upgrade_supported", "sonoma_upgrade_supported", "ventura_upgrade_supported"}
    ensures forall i :: 0 <= i < |MacosReleases| ==> FactName(MacosReleases[i]) in r
    ensures forall i :: 0 <= i < |MacosReleases| ==>
      r[FactName(MacosReleases[i])] == Bool(Eligible(MacosReleases[i],
        IsVirtualMachine(macosMajor, hvVmmPresent, cpuFeatures), IoKeyStringValue(modelRaw), macosMajor))
  {
    var pairs := Assignments(IsVirtualMachine(macosMajor, hvVmmPresent, cpuFeatures), IoKeyStringValue(modelRaw), macosMajor);
    TableFactNames();
    assert LastFor(pairs, 0) && LastFor(pairs, 1) && LastFor(pairs, 2);
    assert forall k :: k in FromPairs(pairs) <==> Keyed(pairs, k) by {
      forall k ensures k in FromPairs(pairs) <==> Keyed(pairs, k) {
        FromPairsKeys(pairs, k);
      }
    }
    FromPairs(pairs)
  }

  /** The joined literal leaves the Mac mini (M1, 2020) and the Mac Pro (2019)
      off the Sequoia list, although the Sonoma list names both. */
  lemma JoinedSequoiaModels()
    ensures "Macmini9,1" !in SequoiaModels && "MacPro7,1" !in SequoiaModels
    ensures "Macmini9,1" in SonomaModels && "MacPro7,1" in SonomaModels
  {
    assert SonomaModels[47] == "Macmini9,1" && SonomaModels[48] == "MacPro7,1";
    assert SequoiaModels[48] == "Macmini9,1" + "MacPro7,1";
    forall i | 0 <= i < |SequoiaModels|
      ensures SequoiaModels[i] != "Macmini9,1" && SequoiaModels[i] != "MacPro7,1"
    {
      if i < 10 {} else if i < 20 {} else if i < 30 {} else if i < 40 {} else {}
    }
  }

  /** Consequently a Mac mini (M1, 2020) on macOS 13 is told it can move to
      Sonoma but not to Sequoia. */
  lemma MacMiniOnVentura()
    ensures Fact(13, Some(0), "", "Macmini9,1")["sonoma_upgrade_supported"] == Bool(true)
    ensures Fact(13, Some(0), "", "Macmini9,1")["sequoia_upgrade_supported"] == Bool(false)
  {
    JoinedSequoiaModels();
    TableFactNames();
    StripsOnlyTerminators("Macmini9,1", []);
    assert "Macmini9,1" + [] == "Macmini9,1";
    assert !IsVirtualMachine(13, Some(0), "");
  }

  /** A virtual machine is offered every release in the table. */
  lemma VirtualMachineOfferedEverything(macosMajor: int, hvVmmPresent: Option<int>, cpuFeatures: string, modelRaw: string, k: string)
    requires IsVirtualMachine(macosMajor, hvVmmPresent, cpuFeatures)
    requires k in Fact(macosMajor, hvVmmPresent, cpuFeatures, modelRaw)
    ensures Fact(macosMajor, hvVmmPresent, cpuFeatures, modelRaw)[k] == Bool(true)
  {
    TableFactNames();
  }

  /** Moving to a newer macOS never makes a Mac eligible for a release it was
      not eligible for before, as long as the virtual-machine test asks the
      same question (macOS 11 and later). */
  lemma EligibilityAntitone(hvVmmPresent: Option<int>, cpuFeatures: string, modelRaw: string, older: int, newer: int, i: int)
    requires 11 <= older <= newer
    requires 0 <= i < |MacosReleases|
    ensures Fact(newer, hvVmmPresent, cpuFeatures, modelRaw)[FactName(MacosReleases[i])] == Bool(true) ==>
            Fact(older, hvVmmPresent, cpuFeatures, modelRaw)[FactName(MacosReleases[i])] == Bool(true)
  {
  }
}

=== FILE: monterey_upgrade.dfy ===
/** The `monterey_upgrade_supported` producer: whether this Mac can be
    upgraded to macOS 12 Monterey. A virtual machine always can; otherwise the
    hardware must be recognised by model, board id or device id, and the
    running system must be macOS 10.9 through 11.

    Host inputs: the `machdep.cpu.features` sysctl string, the raw `model` and
    `board-id` IORegistry values decoded as text, the `hw.target` sysctl
    string and the Darwin major version from `os.uname()`.
 */
module MontereyUpgrade {
  import opened Text
  import opened Facts
  import opened Platform

  const FactKey := "monterey_upgrade_supported"

  /** `supported_models` in `is_supported_model()`. */
  const SupportedModels: seq<string> :=
    [
      "MacBook10,1", "MacBook9,1", "MacBookAir7,1", "MacBookAir7,2", "MacBookAir8,1",
      "MacBookAir8,2", "MacBookAir9,1", "MacBookPro11,4", "MacBookPro11,5", "MacBookPro12,1"
    ] + [
      "MacBookPro13,1", "MacBookPro13,2", "MacBookPro13,3", "MacBookPro14,1", "MacBookPro14,2",
      "MacBookPro14,3", "MacBookPro15,1", "MacBookPro15,2", "MacBookPro15,3", "MacBookPro15,4"
    ] + [
      "MacBookPro16,1", "MacBookPro16,2", "MacBookPro16,3", "MacBookPro16,4", "MacPro6,1",
      "MacPro7,1", "Macmini7,1", "Macmini8,1", "iMac16,1", "iMac16,2"
    ] + [
      "iMac17,1", "iMac18,1", "iMac18,2", "iMac18,3", "iMac19,1",
      "iMac19,2", "iMac20,1", "iMac20,2", "iMacPro1,1"
    ]

  /** `platform_support_values` in `is_supported_board_id()`. */
  const PlatformSupportValues: seq<string> :=
    [
      "Mac-06F11F11946D27C5", "Mac-06F11FD93F0323C5", "Mac-0CFF9C7C2B63DF8D", "Mac-112818653D3AABFC", "Mac-1E7E29AD0135F9BC",
      "Mac-226CB3C6A851A671", "Mac-27AD2F918AE68F61", "Mac-35C5E08120C7EEAF", "Mac-473D31EABEB93F9B", "Mac-4B682C642B45593E"
    ] + [
      "Mac-53FDB3D8DB8CA971", "Mac-551B86E5744E2388", "Mac-5F9802EFE386AA28", "Mac-63001698E7A34814", "Mac-65CE76090165799A",
      "Mac-66E35819EE2D0D05", "Mac-77F17D7DA9285301", "Mac-7BA5B2D9E42DDD94", "Mac-7BA5B2DFE22DDD8C", "Mac-827FAC58A8FDFA22"
    ] + [
      "Mac-827FB448E656EC26", "Mac-937A206F2EE63C01", "Mac-937CB26E2E02BB01", "Mac-9AE82516C7C6B903", "Mac-9F18E312C5C2BF0B",
      "Mac-A369DDC4E67F1C45", "Mac-A5C67F76ED83108C", "Mac-A61BADE1FDAD7B05", "Mac-AA95B1DDAB278B95", "Mac-AF89B6D9451A490B"
    ] + [
      "Mac-B4831CEBD52A0C4C", "Mac-B809C3757DA9BB8D", "Mac-BE088AF8C5EB4FA2", "Mac-CAD6701F7CEA0921", "Mac-CFF7D910A743CAAF",
      "Mac-DB15BD556843C820", "Mac-E1008331FDC96864", "Mac-E43C1C25D4880AD6", "Mac-E7203C0F68AA0004", "Mac-EE2EBD4B90B839A8"
    ] + [
      "Mac-F60DEB81FF30ACF6", "Mac-FFE5EF870D7BA81A", "VMM-x86_64"
    ]

  /** `device_support_values` in `is_supported_device_id()`, as the literal is
      written: 'J316sAP' and 'J456AP' stand on consecutive lines with no comma
      between them, so Python joins them into the single entry
      'J316sAPJ456AP'. */
  const DeviceSupportValues: seq<string> :=
    [
      "J132AP", "J137AP", "J140AAP", "J140KAP", "J152FAP",
      "J160AP", "J174AP", "J185AP", "J185FAP", "J213AP"
    ] + [
      "J214AP", "J214KAP", "J215AP", "J223AP", "J230AP",
      "J230KAP", "J274AP", "J293AP", "J313AP", "J314cAP"
    ] + [
      "J314sAP", "J316cAP", "J316sAP" + "J456AP", "J457AP", "J680AP",
      "J780AP", "VMA2MACOSAP", "VMM-x86_64", "X589AMLUAP", "X86LEGACYAP"
    ]

  /** `fact()`: a virtual machine is always eligible; any other Mac is eligible
      when one of its three hardware identifiers is recognised and it runs
      Darwin 13 through 20 (macOS 10.9 through 11). */
  function Fact(cpuFeatures: string, modelRaw: string, boardRaw: string, hwTarget: string, darwinMajor: int): (r: FactMap)
    ensures r.Keys == {FactKey}
    ensures HasVmmFeature(cpuFeatures) ==> r[FactKey] == Bool(true)
    ensures !HasVmmFeature(cpuFeatures) ==>
      (r[FactKey] == Bool(true) <==>
        && (|| IoKeyStringValue(modelRaw) in SupportedModels
            || IoKeyStringValue(boardRaw) in PlatformSupportValues
            || exists i :: 0 <= i < |DeviceSupportValues| && Lower(DeviceSupportValues[i]) == Lower(hwTarget))
        && 13 <= darwinMajor <= 20)
    ensures r[FactKey] == Bool(false) || r[FactKey] == Bool(true)
  {
    if HasVmmFeature(cpuFeatures) then BoolFact(FactKey, true)
    else if (|| IsListedModel(IoKeyStringValue(modelRaw), SupportedModels)
             || IoKeyStringValue(boardRaw) in PlatformSupportValues
             || IsListedDeviceId(hwTarget, DeviceSupportValues))
         && InVersionWindow(darwinMajor, 9, 17)
    then BoolFact(FactKey, true)
    else BoolFact(FactKey, false)
  }

  /** The joined literal recognises neither of the two Apple silicon device
      ids it was meant to list, only their concatenation. */
  lemma JoinedDeviceIds()
    ensures !IsListedDeviceId("J316sAP", DeviceSupportValues)
    ensures !IsListedDeviceId("J456AP", DeviceSupportValues)
    ensures IsListedDeviceId("j316sapj456ap", DeviceSupportValues)
  {
    forall i | 0 <= i < |DeviceSupportValues|
      ensures Lower(DeviceSupportValues[i]) != Lower("J316sAP")
      ensures Lower(DeviceSupportValues[i]) != Lower("J456AP")
    {
      var d := DeviceSupportValues[i];
      if |d| == 7 {
        assert Lower(d)[3] != Lower("J316sAP")[3] || Lower(d)[4] != Lower("J316sAP")[4];
      }
      if |d| == 6 {
        assert Lower(d)[1] != Lower("J456AP")[1] || Lower(d)[2] != Lower("J456AP")[2] || Lower(d)[3] != Lower("J456AP")[3];
      }
    }
    assert Lower(DeviceSupportValues[22]) == Lower("j316sapj456ap");
  }

  /** Once the Mac runs Monterey or later only a virtual machine is offered the
      upgrade, whatever its hardware. */
  lemma NotOfferedOnceInstalled(cpuFeatures: string, modelRaw: string, boardRaw: string, hwTarget: string, darwinMajor: int)
    requires darwinMajor >= 21
    ensures Fact(cpuFeatures, modelRaw, boardRaw, hwTarget, darwinMajor)[FactKey] == Bool(HasVmmFeature(cpuFeatures))
  {
  }
}

=== FILE: physical_or_virtual.dfy ===
/** The `physical_or_virtual` fact: `physical` on real hardware, otherwise the
    virtualisation vendor as far as the hardware and ethernet reports reveal
    it. */
module PhysicalOrVirtual {
  import opened Results
  import opened Text
  import opened Facts
  import opened Platform
  import opened Profiler

  const FactKey := "physical_or_virtual"

  /** Every value the fact can take. */
  const Kinds := ["physical", "vmware", "virtualbox", "parallels", "unknown_virtual"]

  /** The vendor test applied to a virtual machine's boot ROM version and,
      only when that settles nothing, to the ethernet vendor id. A KeyError
      anywhere in the lookups is caught and counts as `unknown_virtual`; an
      IndexError is not caught. */
  function VendorFromReport(dataTypes: seq<DataType>): (r: Result<string>)
    ensures r.Success? ==> r.value in Kinds[1..]
    ensures r.Failure? ==> r.error == IndexError
    ensures var bootRom := Lookup(dataTypes, Hardware, BootRomVersion);
      r == Success("virtualbox") <==>
        bootRom.Success? && !Contains(bootRom.value, "VMW") && Contains(bootRom.value, "VirtualBox")
    ensures var bootRom := Lookup(dataTypes, Hardware, BootRomVersion);
      var vendorId := Lookup(dataTypes, Ethernet, EthernetVendorId);
      r == Success("unknown_virtual") <==>
        || bootRom == Failure(KeyError)
        || (&& bootRom.Success?
            && !Contains(bootRom.value, "VMW")
            && !Contains(bootRom.value, "VirtualBox")
            && (vendorId == Failure(KeyError) || (vendorId.Success? && !Contains(vendorId.value, "0x1ab8"))))
  {
    match Lookup(dataTypes, Hardware, BootRomVersion)
      case Failure(e) => if e == KeyError then Success("unknown_virtual") else Failure(e)
      case Success(bootRom) =>
        if Contains(bootRom, "VMW") then Success("vmware")
        else if Contains(bootRom, "VirtualBox") then Success("virtualbox")
        else match Lookup(dataTypes, Ethernet, EthernetVendorId)
          case Failure(e) => if e == KeyError then Success("unknown_virtual") else Failure(e)
          case Success(vendorId) =>
            if Contains(vendorId, "0x1ab8") then Success("parallels") else Success("unknown_virtual")
  }

  /** `get_machine_type()`. The report is only consulted for a virtual
      machine; a report the tool could not produce gives `unknown_virtual`
      and one the parser rejects fails with ExpatError. */
  function Classify(cpuFeatures: string, report: Report): (r: Result<string>)
    ensures r.Success? ==> r.value in Kinds
    ensures r == Success("physical") <==> !HasVmmFeature(cpuFeatures)
    ensures r.Failure? ==> r.error == ExpatError || r.error == IndexError
    ensures r == Failure(ExpatError) <==> HasVmmFeature(cpuFeatures) && report.Unparsable?
    ensures HasVmmFeature(cpuFeatures) && report.Unavailable? ==> r == Success("unknown_virtual")
  {
    if !HasVmmFeature(cpuFeatures) then Success("physical")
    else match report
      case Unavailable => Success("unknown_virtual")
      case Unparsable => Failure(ExpatError)
      case Parsed(dataTypes) => VendorFromReport(dataTypes)
  }

  /** `fact()`: the one-entry mapping, or the uncaught exception. */
  function Fact(cpuFeatures: string, report: Report): (r: Result<FactMap>)
    ensures r.Success? <==> Classify(cpuFeatures, report).Success?
    ensures r.Success? ==> r.value.Keys == {FactKey} && r.value[FactKey] == Str(Classify(cpuFeatures, report).value)
    ensures r.Failure? ==> r.error == Classify(cpuFeatures, report).error
  {
    var kind :- Classify(cpuFeatures, report);
    Success(map[FactKey := Str(kind)])
  }

  /** The answer is `vmware` exactly when a virtual machine's boot ROM
      version names VMware, whatever the boot ROM also says and whether or
      not the ethernet entry is readable. */
  lemma VmwareIffBootRomSaysSo(cpuFeatures: string, dataTypes: seq<DataType>)
    ensures Classify(cpuFeatures, Parsed(dataTypes)) == Success("vmware") <==>
      && HasVmmFeature(cpuFeatures)
      && Lookup(dataTypes, Hardware, BootRomVersion).Success?
      && Contains(Lookup(dataTypes, Hardware, BootRomVersion).value, "VMW")
  {
  }

  /** The `VMW` test comes before the `VirtualBox` one. */
  lemma VmwareTakesPrecedence(cpuFeatures: string, dataTypes: seq<DataType>)
    requires HasVmmFeature(cpuFeatures)
    requires Lookup(dataTypes, Hardware, BootRomVersion) == Success("VMW VirtualBox")
    ensures Classify(cpuFeatures, Parsed(dataTypes)) == Success("vmware")
  {
    assert StartsWith("VMW VirtualBox", "VMW");
  }

  /** A virtual machine is reported as Parallels exactly when its boot ROM
      names neither VMware nor VirtualBox and its ethernet vendor id contains
      Parallels' PCI vendor number. */
  lemma ParallelsIffVendorId(cpuFeatures: string, dataTypes: seq<DataType>)
    ensures Classify(cpuFeatures, Parsed(dataTypes)) == Success("parallels") <==>
      && HasVmmFeature(cpuFeatures)
      && Lookup(dataTypes, Hardware, BootRomVersion).Success?
      && !Contains(Lookup(dataTypes, Hardware, BootRomVersion).value, "VMW")
      && !Contains(Lookup(dataTypes, Hardware, BootRomVersion).value, "VirtualBox")
      && Lookup(dataTypes, Ethernet, EthernetVendorId).Success?
      && Contains(Lookup(dataTypes, Ethernet, EthernetVendorId).value, "0x1ab8")
  {
  }

  /** A virtual machine is reported as VirtualBox exactly when its boot ROM
      version names VirtualBox and not VMware. */
  lemma VirtualBoxIff(cpuFeatures: string, dataTypes: seq<DataType>)
    ensures Classify(cpuFeatures, Parsed(dataTypes)) == Success("virtualbox") <==>
      && HasVmmFeature(cpuFeatures)
      && Lookup(dataTypes, Hardware, BootRomVersion).Success?
      && !Contains(Lookup(dataTypes, Hardware, BootRomVersion).value, "VMW")
      && Contains(Lookup(dataTypes, Hardware, BootRomVersion).value, "VirtualBox")
  {
  }

  /** A virtual machine is `unknown_virtual` exactly when a lookup hits a
      missing key before any vendor test matches, or when no test matches. */
  lemma UnknownVirtualIff(cpuFeatures: string, dataTypes: seq<DataType>)
    ensures var bootRom := Lookup(dataTypes, Hardware, BootRomVersion);
      var vendorId := Lookup(dataTypes, Ethernet, EthernetVendorId);
      Classify(cpuFeatures, Parsed(dataTypes)) == Success("unknown_virtual") <==>
        && HasVmmFeature(cpuFeatures)
        && (|| bootRom == Failure(KeyError)
            || (&& bootRom.Success?
                && !Contains(bootRom.value, "VMW")
                && !Contains(bootRom.value, "VirtualBox")
                && (vendorId == Failure(KeyError) || (vendorId.Success? && !Contains(vendorId.value, "0x1ab8")))))
  {
  }

  /** Missing keys never make the producer fail: the lookups fail only on a
      report with too few data types or an empty `_items` list. */
  lemma FailsOnlyOnShortLists(cpuFeatures: string, dataTypes: seq<DataType>)
    requires Classify(cpuFeatures, Parsed(dataTypes)).Failure?
    ensures Lookup(dataTypes, Hardware, BootRomVersion) == Failure(IndexError)
      || Lookup(dataTypes, Ethernet, EthernetVendorId) == Failure(IndexError)
  {
  }
}

=== FILE: platform.dfy ===
/** The host queries every upgrade-eligibility producer repeats in its own
    copy: the virtual-machine test on `machdep.cpu.features`, the NUL-stripped
    IORegistry string, the Darwin-to-macOS minor version arithmetic and the
    half-open version window. Each producer file carries its own copy of these
    helpers; they agree, so the model defines each once.

    The raw host values (the sysctl string, the IORegistry bytes decoded as
    text, the Darwin major version) are parameters.
 */
module Platform {
  import opened Text
  import opened Facts

  /** `'VMM' in sysctl('machdep.cpu.features').split()`. */
  predicate HasVmmFeature(cpuFeatures: string) {
    "VMM" in Words(cpuFeatures)
  }

  /** The test finds "VMM" only as a whole whitespace-delimited feature flag:
      a substring of a longer flag does not count. */
  lemma VmmIsWholeFlag(cpuFeatures: string)
    ensures HasVmmFeature(cpuFeatures) <==> exists i :: DelimitedAt(cpuFeatures, "VMM", i)
  {
    WordsAreDelimitedTokens(cpuFeatures, "VMM");
  }

  /** A flag that merely starts with "VMM" does not make a virtual machine,
      although the plain substring test would accept it. */
  lemma VmmPrefixIsNotVmm()
    ensures Contains("VMMX", "VMM")
    ensures !HasVmmFeature("VMMX")
  {
    assert StartsWith("VMMX", "VMM");
    assert WordLength("VMMX") == 4;
    assert "VMMX"[4..] == [] && "VMMX"[..4] == "VMMX";
    assert Words("VMMX") == ["VMMX"];
  }

  /** The flag itself, alone or among others, does. */
  lemma VmmFlagIsVmm()
    ensures HasVmmFeature("FPU VMM")
  {
    var s := "FPU VMM";
    assert DelimitedAt(s, "VMM", 4) by {
      assert s[4..7] == "VMM";
    }
    VmmIsWholeFlag(s);
  }

  /** `io_key_string_value(key)`: the registry bytes decoded as text with the
      trailing NUL terminators removed. */
  function IoKeyStringValue(raw: string): (r: string)
    ensures StartsWith(raw, r)
    ensures forall i :: |r| <= i < |raw| ==> raw[i] == '\0'
    ensures r == [] || r[|r| - 1] != '\0'
  {
    TrimEnd(raw, c => c == '\0')
  }

  /** Only the terminators go: a value that does not itself end in NUL comes
      back exactly, whatever run of terminators follows it. */
  lemma StripsOnlyTerminators(value: string, terminators: string)
    requires value == [] || value[|value| - 1] != '\0'
    requires forall i :: 0 <= i < |terminators| ==> terminators[i] == '\0'
    ensures IoKeyStringValue(value + terminators) == value
  {
    TrimEndRemovesSuffix(value, terminators, c => c == '\0');
  }

  /** `get_minor_system_version()`: Darwin 20 is macOS 10.16/11, Darwin 21 is
      macOS 12, and so on. */
  function MinorSystemVersion(darwinMajor: int): int {
    darwinMajor - 4
  }

  /** `is_supported_system_version()`: the producer's if/elif ladder over the
      minor version, with `first` the lowest supported minor version and
      `beyond` the first one that is no longer eligible. */
  function InVersionWindow(darwinMajor: int, first: int, beyond: int): (r: bool)
    ensures r <==> first + 4 <= darwinMajor < beyond + 4
  {
    var minor := MinorSystemVersion(darwinMajor);
    if minor >= beyond then false
    else if minor >= first then true
    else false
  }

  /** `is_supported_model()` of the allow-list producers: an empty model is
      rejected before the list is consulted. The guard decides nothing on
      its own when the list has no empty entry. */
  function IsListedModel(model: string, models: seq<string>): (r: bool)
    ensures r ==> model in models
    ensures model == [] ==> !r
    ensures [] !in models ==> (r <==> model in models)
  {
    if model == [] then false
    else model in models
  }

  /** `is_supported_model()` of the deny-list producers: every model the list
      does not name passes, an unknown one included. */
  function IsNotDenied(model: string, denied: seq<string>): (r: bool)
    ensures r <==> forall i :: 0 <= i < |denied| ==> denied[i] != model
  {
    model !in denied
  }

  /** `is_supported_device_id()`: both the `hw.target` value and the list
      entries are lower-cased before the membership test, so case is ignored
      on both sides. */
  function IsListedDeviceId(hwTarget: string, deviceIds: seq<string>): (r: bool)
    ensures r <==> exists i :: 0 <= i < |deviceIds| && Lower(deviceIds[i]) == Lower(hwTarget)
  {
    Lower(hwTarget) in LowerAll(deviceIds)
  }

  /** The one-entry dictionary every single-fact producer returns. */
  function BoolFact(key: string, value: bool): (r: FactMap)
    ensures r.Keys == {key}
    ensures r[key] == Bool(value)
  {
    map[key := Bool(value)]
  }
}

=== FILE: profiler.dfy ===
/** The `system_profiler -xml SPEthernetDataType SPHardwareDataType` report
    that both machine classifiers read, and the nested lookup
    `plist[i]['_items'][0][key]` they perform on it.

    Running the tool and parsing its XML are host effects: the model receives
    their outcome as a `Report`.
 */
module Profiler {
  import opened Results

  /** One data type's dictionary in the report: its `_items` list, or `None`
      when the dictionary has no `_items` key. Each item maps property names
      to string values. */
  datatype DataType = DataType(items: Option<seq<map<string, string>>>)

  /** The outcome of running the tool and reading its output:
      `Unavailable` when starting it raises IOError/OSError, `Unparsable` when
      its output is not a property list (the parser raises ExpatError), and
      otherwise the top-level array of data types, in the order requested. */
  datatype Report = Unavailable | Unparsable | Parsed(dataTypes: seq<DataType>)

  /** Position of SPEthernetDataType in the report: it is requested first. */
  const Ethernet: nat := 0
  /** Position of SPHardwareDataType: it is requested second. */
  const Hardware: nat := 1

  const BootRomVersion := "boot_rom_version"
  const EthernetVendorId := "spethernet_vendor-id"

  /** `plist[i]['_items'][0][key]`: indexing past the end of a list raises
      IndexError, a missing dictionary key raises KeyError. */
  function Lookup(dataTypes: seq<DataType>, i: nat, key: string): (r: Result<string>)
    ensures r.Success? <==>
      && i < |dataTypes|
      && dataTypes[i].items.Some?
      && |dataTypes[i].items.value| > 0
      && key in dataTypes[i].items.value[0]
    ensures r.Success? ==> r.value == dataTypes[i].items.value[0][key]
    ensures r.Failure? ==> r.error == IndexError || r.error == KeyError
    ensures r == Failure(KeyError) <==>
      && i < |dataTypes|
      && (dataTypes[i].items.None? || (|dataTypes[i].items.value| > 0 && key !in dataTypes[i].items.value[0]))
  {
    if i >= |dataTypes| then Failure(IndexError)
    else match dataTypes[i].items
      case None => Failure(KeyError)
      case Some(items) =>
        if items == [] then Failure(IndexError)
        else if key !in items[0] then Failure(KeyError)
        else Success(items[0][key])
  }
}

=== FILE: results.dfy ===
/** Failure-compatible wrappers for the host queries and fact producers.

    A producer in the original program signals failure by raising a Python
    exception; here every such raise becomes a `Failure` carrying the
    exception class that would have been raised.
 */
module Results {

  /** The conventional Some/None wrapper, used for host values that may be
      absent (a missing file, an unparsable number, a sysctl of unknown size). */
  datatype Option<+T> = None | Some(value: T) {

    predicate IsFailure() {
      None?
    }

    function PropagateFailure<U>(): Option<U>
      requires None?
    {
      None
    }

    function Extract(): T
      requires Some?
    {
      value
    }

    /** The value in Some, or `default` for None. */
    function GetOr(default: T): (r: T)
      ensures Some? ==> r == value
      ensures None? ==> r == default
    {
      match this
      case Some(v) => v
      case None => default
    }
  }

  /** The Python exception classes the modelled code can raise. */
  datatype PyError =
    | IndexError        // `xs[0]` / `line.split()[3]` on too short a list
    | KeyError          // a dictionary lookup of a missing key
    | ValueError        // `float(...)` / `int(...)` of a malformed string
    | TypeError         // `dict.update(None)`
    | ExpatError        // malformed XML handed to plistlib
    | SystemExit(code: int)

  /** Either the value a Python function returned or the exception it raised. */
  datatype Result<+T> = Success(value: T) | Failure(error: PyError) {

    predicate IsFailure() {
      Failure?
    }

    function PropagateFailure<U>(): Result<U>
      requires Failure?
    {
      Failure(error)
    }

    function Extract(): T
      requires Success?
    {
      value
    }
  }
}

=== FILE: seqs.dfy ===
/** The Python list operations the fact producers use: list comprehensions
    with a filter, `list.remove`, and `sorted(..., key=..., reverse=True)`.
 */
module Seqs {

  /** `a` is an order-preserving sub-sequence of `b`. */
  predicate IsSubseq<T(==)>(a: seq<T>, b: seq<T>)
    decreases |b|
  {
    if a == [] then true
    else if b == [] then false
    else (a[0] == b[0] && IsSubseq(a[1..], b[1..])) || IsSubseq(a, b[1..])
  }

  /** Every sequence is a sub-sequence of itself. */
  lemma {:induction false} SubseqRefl<T>(xs: seq<T>)
    ensures IsSubseq(xs, xs)
    decreases |xs|
  {
    if xs != [] {
      SubseqRefl(xs[1..]);
    }
  }

  /** Being a sub-sequence is transitive. */
  lemma {:induction false} SubseqTrans<T>(a: seq<T>, b: seq<T>, c: seq<T>)
    requires IsSubseq(a, b) && IsSubseq(b, c)
    ensures IsSubseq(a, c)
    decreases |c|
  {
    if a != [] {
      assert b != [] && c != [];
      if b[0] == c[0] && IsSubseq(b[1..], c[1..]) {
        if a[0] == b[0] && IsSubseq(a[1..], b[1..]) {
          SubseqTrans(a[1..], b[1..], c[1..]);
        } else {
          SubseqTrans(a, b[1..], c[1..]);
        }
      } else {
        SubseqTrans(a, b, c[1..]);
      }
    }
  }

  /** Deleting one element leaves a sub-sequence. */
  lemma {:induction false} SubseqDelete<T>(xs: seq<T>, i: nat)
    requires i < |xs|
    ensures IsSubseq(xs[..i] + xs[i + 1..], xs)
    decreases i
  {
    var r := xs[..i] + xs[i + 1..];
    if i == 0 {
      assert r == xs[1..];
      SubseqRefl(xs[1..]);
    } else {
      SubseqDelete(xs[1..], i - 1);
      assert r[0] == xs[0];
      assert r[1..] == xs[1..][..i - 1] + xs[1..][i..];
    }
  }

  /** `[x for x in xs if keep(x)]`. What the result holds is stated by
      `FilterKeeps`. */
  function Filter<T>(xs: seq<T>, keep: T -> bool): (r: seq<T>)
    ensures |r| <= |xs|
    decreases |xs|
  {
    if xs == [] then []
    else
      var rest := Filter(xs[1..], keep);
      if keep(xs[0]) then [xs[0]] + rest else rest
  }

  /** The filtered list is the order-preserving sub-sequence of the elements
      that pass the test, each as often as in the input. */
  lemma {:induction false} FilterKeeps<T>(xs: seq<T>, keep: T -> bool)
    ensures IsSubseq(Filter(xs, keep), xs)
    ensures forall x :: x in Filter(xs, keep) <==> x in xs && keep(x)
    ensures forall x :: multiset(Filter(xs, keep))[x] == if keep(x) then multiset(xs)[x] else 0
    decreases |xs|
  {
    if xs != [] {
      FilterKeeps(xs[1..], keep);
      var rest := Filter(xs[1..], keep);
      assert xs == [xs[0]] + xs[1..];
      if keep(xs[0]) {
        assert ([xs[0]] + rest)[1..] == rest;
      }
    }
  }

  /** Filtering distributes over concatenation. */
  lemma {:induction false} FilterAppend<T>(xs: seq<T>, ys: seq<T>, keep: T -> bool)
    ensures Filter(xs + ys, keep) == Filter(xs, keep) + Filter(ys, keep)
    decreases |xs|
  {
    if xs == [] {
      assert xs + ys == ys;
    } else {
      var zs := xs + ys;
      assert zs[0] == xs[0] && zs[1..] == xs[1..] + ys;
      FilterAppend(xs[1..], ys, keep);
      assert Filter(zs, keep) == (if keep(xs[0]) then [xs[0]] else []) + Filter(zs[1..], keep);
      assert Filter(xs, keep) == (if keep(xs[0]) then [xs[0]] else []) + Filter(xs[1..], keep);
    }
  }

  /** Filtering twice with the same test changes nothing. */
  lemma {:induction false} FilterIdempotent<T>(xs: seq<T>, keep: T -> bool)
    ensures Filter(Filter(xs, keep), keep) == Filter(xs, keep)
    decreases |xs|
  {
    if xs != [] {
      FilterIdempotent(xs[1..], keep);
      var rest := Filter(xs[1..], keep);
      if keep(xs[0]) {
        assert ([xs[0]] + rest)[1..] == rest;
      }
    }
  }

  /** `xs[i]` is the first occurrence of `x` in `xs`. */
  predicate FirstAt<T(==)>(xs: seq<T>, x: T, i: int) {
    0 <= i < |xs| && xs[i] == x && x !in xs[..i]
  }

  /** Python's `xs.remove(x)`: drops the first occurrence of `x`. */
  function RemoveFirst<T(==)>(xs: seq<T>, x: T): (r: seq<T>)
    requires x in xs
    ensures exists i :: FirstAt(xs, x, i) && r == xs[..i] + xs[i + 1..]
    decreases |xs|
  {
    if xs[0] == x then
      assert FirstAt(xs, x, 0) && xs[1..] == xs[..0] + xs[1..];
      xs[1..]
    else
      var rest := RemoveFirst(xs[1..], x);
      var i :| FirstAt(xs[1..], x, i) && rest == xs[1..][..i] + xs[1..][i + 1..];
      assert FirstAt(xs, x, i + 1) by {
        assert xs[..i + 1] == [xs[0]] + xs[1..][..i];
      }
      assert [xs[0]] + rest == xs[..i + 1] + xs[i + 2..] by {
        assert xs[..i + 1] == [xs[0]] + xs[1..][..i];
        assert xs[i + 2..] == xs[1..][i + 1..];
      }
      [xs[0]] + rest
  }

  /** The distinct elements of `xs`, in order of first appearance. */
  function Distinct<T(==,!new)>(xs: seq<T>): (r: seq<T>)
    ensures forall x :: x in r <==> x in xs
    ensures forall i, j :: 0 <= i < j < |r| ==> r[i] != r[j]
    decreases |xs|
  {
    if xs == [] then []
    else
      var rest := Distinct(xs[..|xs| - 1]);
      var last := xs[|xs| - 1];
      assert xs == xs[..|xs| - 1] + [last];
      if last in rest then rest else rest + [last]
  }

  /** In a sequence without repetitions every element occurs once. */
  lemma {:induction false} DistinctCountsOne<T>(xs: seq<T>, x: T)
    requires forall i, j :: 0 <= i < j < |xs| ==> xs[i] != xs[j]
    ensures multiset(xs)[x] <= 1
    decreases |xs|
  {
    if xs != [] {
      assert xs == [xs[0]] + xs[1..];
      DistinctCountsOne(xs[1..], x);
      if xs[0] == x {
        assert x !in xs[1..];
      }
    }
  }

  /** A permutation of a sequence without repetitions has the same elements
      and no repetitions either. */
  lemma PermutationOfDistinct<T>(a: seq<T>, d: seq<T>)
    requires multiset(a) == multiset(d)
    requires forall i, j :: 0 <= i < j < |d| ==> d[i] != d[j]
    ensures forall x :: x in a <==> x in d
    ensures forall i, j :: 0 <= i < j < |a| ==> a[i] != a[j]
  {
    forall x ensures x in a <==> x in d {
      assert x in a <==> x in multiset(a);
      assert x in d <==> x in multiset(d);
    }
    forall i, j | 0 <= i < j < |a| ensures a[i] != a[j] {
      if a[i] == a[j] {
        var x := a[i];
        assert a == a[..i] + [x] + a[i + 1..j] + [x] + a[j + 1..];
        assert multiset(a)[x] >= 2;
        DistinctCountsOne(d, x);
      }
    }
  }

  /** `xs` is ordered from the largest `key` to the smallest. */
  predicate SortedDesc<T>(xs: seq<T>, key: T -> real) {
    forall i, j :: 0 <= i < j < |xs| ==> key(xs[i]) >= key(xs[j])
  }

  /** Inserts `x` into a descending sequence before the first element whose key
      is not larger, so `x` goes ahead of the elements its key ties with. */
  function InsertDesc<T>(x: T, xs: seq<T>, key: T -> real): (r: seq<T>)
    requires SortedDesc(xs, key)
    ensures |r| == |xs| + 1
    ensures r[0] == x || (xs != [] && r[0] == xs[0])
    ensures SortedDesc(r, key)
    ensures multiset(r) == multiset(xs) + multiset{x}
    decreases |xs|
  {
    if xs == [] || key(xs[0]) <= key(x) then [x] + xs
    else
      var rest := InsertDesc(x, xs[1..], key);
      var r := [xs[0]] + rest;
      assert xs == [xs[0]] + xs[1..];
      assert key(rest[0]) <= key(xs[0]);
      assert forall j :: 0 < j < |r| ==> key(r[j]) <= key(rest[0]);
      r
  }

  /** `sorted(xs, key=key, reverse=True)`: a permutation of `xs` ordered from
      the largest key to the smallest. The contract does not fix the order of
      elements with equal keys. */
  function SortDesc<T>(xs: seq<T>, key: T -> real): (r: seq<T>)
    ensures SortedDesc(r, key)
    ensures multiset(r) == multiset(xs)
    decreases |xs|
  {
    if xs == [] then []
    else
      assert xs == [xs[0]] + xs[1..];
      InsertDesc(xs[0], SortDesc(xs[1..], key), key)
  }
}

=== FILE: sierra_upgrade.dfy ===
/** The `sierra_upgrade_supported` producer: whether this Mac can be upgraded
    to macOS 10.12 Sierra. A virtual machine always can; otherwise the model
    must not be on the list of excluded models, the board id must be on the
    list of supported boards, and the running system must be OS X 10.7
    through 10.11.

    Unlike the later producers, this one reads the model from the `hw.model`
    sysctl and takes the board id as the raw registry bytes minus their last
    byte, the NUL terminator.

    Host inputs: the `machdep.cpu.features` and `hw.model` sysctl strings, the
    raw `board-id` IORegistry bytes as text, and the Darwin major version from
    `os.uname()`.
 */
module SierraUpgrade {
  import opened Text
  import opened Facts
  import opened Platform

  const FactKey := "sierra_upgrade_supported"

  /** `non_supported_models` in `is_supported_model()`. */
  const NonSupportedModels: seq<string> :=
    [
      "iMac4,1", "iMac4,2", "iMac5,1", "iMac5,2", "iMac6,1",
      "iMac7,1", "iMac8,1", "iMac9,1", "MacBook1,1", "MacBook2,1"
    ] + [
      "MacBook3,1", "MacBook4,1", "MacBook5,1", "MacBook5,2", "MacBookAir1,1",
      "MacBookAir2,1", "MacBookPro1,1", "MacBookPro1,2", "MacBookPro2,1", "MacBookPro2,2"
    ] + [
      "MacBookPro3,1", "MacBookPro4,1", "MacBookPro5,1", "MacBookPro5,2", "MacBookPro5,3",
      "MacBookPro5,4", "MacBookPro5,5", "Macmini1,1", "Macmini2,1", "Macmini3,1"
    ] + [
      "MacPro1,1", "MacPro2,1", "MacPro3,1", "MacPro4,1", "Xserve1,1",
      "Xserve2,1", "Xserve3,1"
    ]

  /** `platform_support_values` in `is_supported_board_id()`. */
  const PlatformSupportValues: seq<string> :=
    [
      "Mac-00BE6ED71E35EB86", "Mac-031AEE4D24BFF0B1", "Mac-031B6874CF7F642A", "Mac-06F11F11946D27C5", "Mac-06F11FD93F0323C5",
      "Mac-189A3D4F975D5FFC", "Mac-27ADBB7B4CEE8E61", "Mac-2BD1B31983FE1663", "Mac-2E6FAB96566FE58C", "Mac-35C1E88140C3E6CF"
    ] + [
      "Mac-35C5E08120C7EEAF", "Mac-3CBD00234E554E41", "Mac-42FD25EABCABB274", "Mac-473D31EABEB93F9B", "Mac-4B7AC7E43945597E",
      "Mac-4BC72D62AD45599E", "Mac-4BFBC784B845591E", "Mac-50619A408DB004DA", "Mac-65CE76090165799A", "Mac-66E35819EE2D0D05"
    ] + [
      "Mac-66F35F19FE2A0D05", "Mac-6F01561E16C75D06", "Mac-742912EFDBEE19B3", "Mac-77EB7D7DAF985301", "Mac-7BA5B2794B2CDB12",
      "Mac-7DF21CB3ED6977E5", "Mac-7DF2A3B5E5D671ED", "Mac-81E3E92DD6088272", "Mac-8ED6AF5B48C039E1", "Mac-937CB26E2E02BB01"
    ] + [
      "Mac-942452F5819B1C1B", "Mac-942459F5819B171B", "Mac-94245A3940C91C80", "Mac-94245B3640C91C81", "Mac-942B59F58194171B",
      "Mac-942B5BF58194151B", "Mac-942C5DF58193131B", "Mac-9AE82516C7C6B903", "Mac-9F18E312C5C2BF0B", "Mac-A369DDC4E67F1C45"
    ] + [
      "Mac-A5C67F76ED83108C", "Mac-AFD8A9D944EA4843", "Mac-B809C3757DA9BB8D", "Mac-BE0E8AC46FE800CC", "Mac-C08A6BB70A942AC2",
      "Mac-C3EC7CD22292981F", "Mac-DB15BD556843C820", "Mac-E43C1C25D4880AD6", "Mac-F2208EC8", "Mac-F221BEC8"
    ] + [
      "Mac-F221DCC8", "Mac-F222BEC8", "Mac-F2238AC8", "Mac-F2238BAE", "Mac-F22586C8",
      "Mac-F22589C8", "Mac-F2268CC8", "Mac-F2268DAE", "Mac-F2268DC8", "Mac-F22C89C8"
    ] + [
      "Mac-F22C8AC8", "Mac-F305150B0C7DEEEF", "Mac-F60DEB81FF30ACF6", "Mac-F65AE981FFA204ED", "Mac-FA842E06C61E91C5",
      "Mac-FC02E91DDD3FA6A4", "Mac-FFE5EF870D7BA81A"
    ]

  /** `get_board_id()`: the registry bytes with the last one dropped; the
      slice `[0:-1]` of an empty value is empty. */
  function BoardId(raw: string): (r: string)
    ensures raw == [] ==> r == []
    ensures raw != [] ==> |r| == |raw| - 1 && raw == r + [raw[|raw| - 1]]
  {
    if raw == [] then [] else raw[..|raw| - 1]
  }

  /** Nothing on the deny list is empty, so a Mac whose model cannot be read
      passes `is_supported_model()`. */
  lemma EmptyModelPasses()
    ensures IsNotDenied([], NonSupportedModels)
  {
    assert forall i :: 0 <= i < |NonSupportedModels| ==> NonSupportedModels[i] != [];
  }

  /** `fact()`: a virtual machine is always eligible; any other Mac is eligible
      when its model is not excluded, its board id is supported and it runs
      Darwin 11 through 15 (OS X 10.7 through 10.11). */
  function Fact(cpuFeatures: string, model: string, boardRaw: string, darwinMajor: int): (r: FactMap)
    ensures r.Keys == {FactKey}
    ensures HasVmmFeature(cpuFeatures) ==> r[FactKey] == Bool(true)
    ensures !HasVmmFeature(cpuFeatures) ==>
      (r[FactKey] == Bool(true) <==>
        && model !in NonSupportedModels
        && BoardId(boardRaw) in PlatformSupportValues
        && 11 <= darwinMajor <= 15)
    ensures r[FactKey] == Bool(false) || r[FactKey] == Bool(true)
  {
    if HasVmmFeature(cpuFeatures) then BoolFact(FactKey, true)
    else if IsNotDenied(model, NonSupportedModels)
         && BoardId(boardRaw) in PlatformSupportValues
         && InVersionWindow(darwinMajor, 7, 12)
    then BoolFact(FactKey, true)
    else BoolFact(FactKey, false)
  }

  /** Every listed board id has 12 or 20 characters. */
  lemma ListedBoardIdLength(board: string)
    requires board in PlatformSupportValues
    ensures |board| == 12 || |board| == 20
  {
    var i :| 0 <= i < |PlatformSupportValues| && PlatformSupportValues[i] == board;
    if i < 10 {} else if i < 20 {} else if i < 30 {} else if i < 40 {} else if i < 50 {} else if i < 60 {} else {}
  }

  /** A board id stored with its single NUL terminator is recognised; one
      stored without a terminator loses its last character and is not. */
  lemma BoardIdDropsTerminator(board: string)
    requires board in PlatformSupportValues
    ensures BoardId(board + "\0") in PlatformSupportValues
    ensures BoardId(board) !in PlatformSupportValues
  {
    assert BoardId(board + "\0") == board;
    ListedBoardIdLength(board);
    if BoardId(board) in PlatformSupportValues {
      ListedBoardIdLength(BoardId(board));
    }
  }
}

=== FILE: text.dfy ===
/** The Python string operations the fact producers rely on: `str.split()`,
    `str.split(sep)`, `str.rstrip()`, `str.lower()`, `str.startswith()`,
    `str.endswith()`, `str.partition()` and the substring test `a in b`.

    Whitespace and case are the ASCII notions: every host string the model
    reads (sysctl values, `ac` and `id` output, IORegistry identifiers) is
    ASCII.
 */
module Text {

  /** The ASCII whitespace characters Python's `split()` and `rstrip()` skip. */
  predicate IsSpace(c: char) {
    c == ' ' || c == '\t' || c == '\n' || c == '\r' || c == '\U{0B}' || c == '\U{0C}'
  }

  predicate NoSpace(s: string) {
    forall i :: 0 <= i < |s| ==> !IsSpace(s[i])
  }

  // ---------------------------------------------------------------------------
  // Prefix, suffix and substring tests

  predicate StartsWith(s: string, prefix: string) {
    |prefix| <= |s| && s[..|prefix|] == prefix
  }

  predicate EndsWith(s: string, suffix: string) {
    |suffix| <= |s| && s[|s| - |suffix|..] == suffix
  }

  /** `needle` occurs in `hay` at position `i`. */
  predicate OccursAt(hay: string, needle: string, i: int) {
    0 <= i && i + |needle| <= |hay| && hay[i..i + |needle|] == needle
  }

  /** Python's `needle in hay`, computed by scanning `hay` from the left. */
  predicate Contains(hay: string, needle: string)
    decreases |hay|
  {
    StartsWith(hay, needle) || (hay != [] && Contains(hay[1..], needle))
  }

  /** The scan finds exactly the positions where `needle` occurs. */
  lemma {:induction false} ContainsIffOccurs(hay: string, needle: string)
    ensures Contains(hay, needle) <==> exists i :: OccursAt(hay, needle, i)
    decreases |hay|
  {
    if StartsWith(hay, needle) {
      assert OccursAt(hay, needle, 0);
    } else if hay == [] {
      assert forall i :: OccursAt(hay, needle, i) ==> i == 0 && needle == [];
    } else {
      ContainsIffOccurs(hay[1..], needle);
      forall i | 0 <= i
        ensures OccursAt(hay[1..], needle, i) <==> OccursAt(hay, needle, i + 1)
      {
        if i + 1 + |needle| <= |hay| {
          assert hay[1..][i..i + |needle|] == hay[i + 1..i + 1 + |needle|];
        }
      }
      assert !OccursAt(hay, needle, 0);
      if exists i :: OccursAt(hay, needle, i) {
        var i :| OccursAt(hay, needle, i);
        assert OccursAt(hay[1..], needle, i - 1);
      }
    }
  }

  // ---------------------------------------------------------------------------
  // Case folding

  function LowerChar(c: char): char {
    if 'A' <= c <= 'Z' then (c as int + 32) as char else c
  }

  /** Python's `str.lower()` on ASCII text. */
  function Lower(s: string): (r: string)
    ensures |r| == |s|
    ensures forall i :: 0 <= i < |s| ==> r[i] == LowerChar(s[i])
  {
    seq(|s|, i requires 0 <= i < |s| => LowerChar(s[i]))
  }

  /** `[x.lower() for x in xs]`. */
  function LowerAll(xs: seq<string>): (r: seq<string>)
    ensures |r| == |xs|
    ensures forall i :: 0 <= i < |xs| ==> r[i] == Lower(xs[i])
  {
    seq(|xs|, i requires 0 <= i < |xs| => Lower(xs[i]))
  }

  /** Lower-casing twice is lower-casing once. */
  lemma LowerIdempotent(s: string)
    ensures Lower(Lower(s)) == Lower(s)
  {
  }

  // ---------------------------------------------------------------------------
  // Trailing strip

  /** Python's `s.rstrip(chars)`: drops the longest suffix whose characters all
      satisfy `drop`. */
  function TrimEnd(s: string, drop: char -> bool): (r: string)
    ensures StartsWith(s, r)
    ensures forall i :: |r| <= i < |s| ==> drop(s[i])
    ensures r == [] || !drop(r[|r| - 1])
    decreases |s|
  {
    if s != [] && drop(s[|s| - 1]) then TrimEnd(s[..|s| - 1], drop) else s
  }

  /** Only the dropped suffix goes: a value that does not itself end in a
      dropped character comes back exactly, whatever run of them follows it. */
  lemma {:induction false} TrimEndRemovesSuffix(value: string, tail: string, drop: char -> bool)
    requires value == [] || !drop(value[|value| - 1])
    requires forall i :: 0 <= i < |tail| ==> drop(tail[i])
    ensures TrimEnd(value + tail, drop) == value
    decreases |tail|
  {
    var s := value + tail;
    if tail == [] {
      assert s == value;
    } else {
      var shorter := tail[..|tail| - 1];
      assert s[..|s| - 1] == value + shorter;
      TrimEndRemovesSuffix(value, shorter, drop);
    }
  }

  /** Python's `s.rstrip()`. */
  function RStrip(s: string): (r: string)
    ensures StartsWith(s, r)
    ensures forall i :: |r| <= i < |s| ==> IsSpace(s[i])
    ensures r == [] || !IsSpace(r[|r| - 1])
  {
    TrimEnd(s, IsSpace)
  }

  // ---------------------------------------------------------------------------
  // str.partition

  /** `s.partition(c)[2]`: everything after the first `c`, or "" when `c` does
      not occur. */
  function AfterFirst(s: string, c: char): (r: string)
    ensures c !in s ==> r == []
    ensures c in s ==> exists i :: 0 <= i < |s| && s[i] == c && c !in s[..i] && r == s[i + 1..]
    decreases |s|
  {
    if s == [] then []
    else if s[0] == c then s[1..]
    else
      var r := AfterFirst(s[1..], c);
      assert c in s ==> c in s[1..];
      assert forall i :: 0 <= i < |s[1..]| ==> s[1..][..i] == s[1..i + 1] && s[..i + 1] == [s[0]] + s[1..i + 1];
      r
  }

  // ---------------------------------------------------------------------------
  // str.split(sep)

  /** Python's `s.split(sep)` with a one-character separator: the pieces
      between separators, so "a\n" splits into ["a", ""]. */
  function Split(s: string, sep: char): (pieces: seq<string>)
    ensures |pieces| >= 1
    ensures forall k :: 0 <= k < |pieces| ==> sep !in pieces[k]
    decreases |s|
  {
    if s == [] then [[]]
    else
      var rest := Split(s[1..], sep);
      if s[0] == sep then [[]] + rest
      else [[s[0]] + rest[0]] + rest[1..]
  }

  /** Python's `sep.join(pieces)`. */
  function Join(pieces: seq<string>, sep: char): string
    requires |pieces| >= 1
    decreases |pieces|
  {
    if |pieces| == 1 then pieces[0] else pieces[0] + [sep] + Join(pieces[1..], sep)
  }

  /** Splitting and joining again gives back the original text. */
  lemma {:induction false} JoinSplit(s: string, sep: char)
    ensures Join(Split(s, sep), sep) == s
    decreases |s|
  {
    if s != [] {
      JoinSplit(s[1..], sep);
      var rest := Split(s[1..], sep);
      if s[0] != sep {
        if |rest| > 1 {
          assert Join(rest, sep) == rest[0] + [sep] + Join(rest[1..], sep);
          assert Join(Split(s, sep), sep) == [s[0]] + rest[0] + [sep] + Join(rest[1..], sep);
        }
        assert s == [s[0]] + s[1..];
      }
    }
  }

  /** Joining separator-free pieces and splitting again gives back the pieces. */
  lemma {:induction false} SplitJoin(pieces: seq<string>, sep: char)
    requires |pieces| >= 1
    requires forall k :: 0 <= k < |pieces| ==> sep !in pieces[k]
    ensures Split(Join(pieces, sep), sep) == pieces
    decreases |pieces|, |pieces[0]|
  {
    var p := pieces[0];
    if p == [] {
      if |pieces| > 1 {
        SplitJoin(pieces[1..], sep);
        var j := Join(pieces[1..], sep);
        assert Join(pieces, sep) == [sep] + j;
        assert ([sep] + j)[1..] == j;
        assert pieces == [[]] + pieces[1..];
      }
    } else {
      var shorter := [p[1..]] + pieces[1..];
      assert sep !in p[1..] by {
        assert forall x :: x in p[1..] ==> x in p;
      }
      SplitJoin(shorter, sep);
      var j := Join(pieces, sep);
      if |pieces| == 1 {
        assert j == p;
      } else {
        assert j == p + [sep] + Join(pieces[1..], sep);
        assert Join(shorter, sep) == p[1..] + [sep] + Join(pieces[1..], sep);
      }
      assert j[0] == p[0] && j[1..] == Join(shorter, sep);
      assert p[0] != sep by {
        assert p[0] in p;
      }
      assert Split(j, sep) == [[p[0]] + shorter[0]] + shorter[1..];
      assert shorter[1..] == pieces[1..];
      assert [p[0]] + p[1..] == p;
      assert pieces == [p] + pieces[1..];
    }
  }

  /** Joining two lists of pieces puts one separator between their joins. */
  lemma {:induction false} JoinAppend(a: seq<string>, b: seq<string>, sep: char)
    requires |a| >= 1 && |b| >= 1
    ensures Join(a + b, sep) == Join(a, sep) + [sep] + Join(b, sep)
    decreases |a|
  {
    if |a| == 1 {
      assert (a + b)[1..] == b;
    } else {
      assert (a + b)[1..] == a[1..] + b;
      JoinAppend(a[1..], b, sep);
    }
  }

  /** Text glued at a separator splits into the pieces of its two halves. */
  lemma SplitAppend(a: string, b: string, sep: char)
    ensures Split(a + [sep] + b, sep) == Split(a, sep) + Split(b, sep)
  {
    var pa, pb := Split(a, sep), Split(b, sep);
    JoinSplit(a, sep);
    JoinSplit(b, sep);
    JoinAppend(pa, pb, sep);
    SplitJoin(pa + pb, sep);
  }

  // ---------------------------------------------------------------------------
  // str.split()

  /** Length of the leading run of non-whitespace characters. */
  function WordLength(s: string): (n: nat)
    ensures n <= |s|
    ensures forall i :: 0 <= i < n ==> !IsSpace(s[i])
    ensures n == |s| || IsSpace(s[n])
    decreases |s|
  {
    if s == [] || IsSpace(s[0]) then 0 else 1 + WordLength(s[1..])
  }

  /** Python's `s.split()`: the maximal runs of non-whitespace, in order. */
  function Words(s: string): (ws: seq<string>)
    ensures forall k :: 0 <= k < |ws| ==> ws[k] != [] && NoSpace(ws[k])
    decreases |s|
  {
    if s == [] then []
    else if IsSpace(s[0]) then Words(s[1..])
    else
      var n := WordLength(s);
      [s[..n]] + Words(s[n..])
  }

  /** `w` occurs in `s` at `i` with whitespace or an end of `s` on both sides. */
  predicate DelimitedAt(s: string, w: string, i: int) {
    && OccursAt(s, w, i)
    && (i == 0 || IsSpace(s[i - 1]))
    && (i + |w| == |s| || IsSpace(s[i + |w|]))
  }

  /** An occurrence agrees with `needle` character by character. */
  lemma OccursAtChars(hay: string, needle: string, i: int)
    ensures OccursAt(hay, needle, i) ==> forall k :: 0 <= k < |needle| ==> hay[i + k] == needle[k]
  {
  }

  /** Moving the start of `s` forward by `d` shifts every delimited occurrence
      past `d` by `d`, provided a token cannot start at `d` in one and not the
      other. */
  lemma ShiftDelimited(s: string, w: string, d: nat, j: nat)
    requires w != [] && NoSpace(w)
    requires 0 < d <= |s|
    requires IsSpace(s[d - 1]) || j > 0 || d == |s| || IsSpace(s[d])
    ensures DelimitedAt(s, w, d + j) <==> DelimitedAt(s[d..], w, j)
  {
    var t := s[d..];
    if d + j + |w| <= |s| {
      assert t[j..j + |w|] == s[d + j..d + j + |w|];
    }
    if j == 0 && !IsSpace(s[d - 1]) {
      OccursAtChars(t, w, 0);
      assert !DelimitedAt(t, w, 0);
    }
  }

  /** The inductive step over a leading whitespace character. */
  lemma TokensAfterSpace(s: string, w: string)
    requires w != [] && NoSpace(w)
    requires s != [] && IsSpace(s[0])
    requires w in Words(s[1..]) <==> exists j :: DelimitedAt(s[1..], w, j)
    ensures w in Words(s) <==> exists i :: DelimitedAt(s, w, i)
  {
    var t := s[1..];
    OccursAtChars(s, w, 0);
    assert !DelimitedAt(s, w, 0);
    forall j: nat ensures DelimitedAt(s, w, 1 + j) <==> DelimitedAt(t, w, j) {
      ShiftDelimited(s, w, 1, j);
    }
    if w in Words(s) {
      var j :| DelimitedAt(t, w, j);
      assert DelimitedAt(s, w, 1 + j);
    }
    if exists i :: DelimitedAt(s, w, i) {
      var i :| DelimitedAt(s, w, i);
      assert DelimitedAt(t, w, i - 1);
    }
  }

  /** A token delimited at the start of `s` is exactly its leading word. */
  lemma LeadingWordDelimited(s: string, w: string)
    requires w != [] && NoSpace(w)
    requires s != [] && !IsSpace(s[0])
    ensures DelimitedAt(s, w, 0) <==> w == s[..WordLength(s)]
  {
    var n := WordLength(s);
    OccursAtChars(s, w, 0);
  }

  /** A delimited token of `s` other than its leading word is a delimited
      token of what follows that word. */
  lemma LaterTokenAfterWord(s: string, w: string, i: int)
    requires w != [] && NoSpace(w)
    requires s != [] && !IsSpace(s[0])
    requires DelimitedAt(s, w, i)
    ensures i == 0 || (i >= WordLength(s) && DelimitedAt(s[WordLength(s)..], w, i - WordLength(s)))
  {
    var n := WordLength(s);
    if i >= n {
      ShiftDelimited(s, w, n, i - n);
    }
  }

  /** The inductive step over a leading word of length `WordLength(s)`. */
  lemma TokensAfterWord(s: string, w: string)
    requires w != [] && NoSpace(w)
    requires s != [] && !IsSpace(s[0])
    requires w in Words(s[WordLength(s)..]) <==> exists j :: DelimitedAt(s[WordLength(s)..], w, j)
    ensures w in Words(s) <==> exists i :: DelimitedAt(s, w, i)
  {
    var n := WordLength(s);
    var t := s[n..];
    assert Words(s) == [s[..n]] + Words(t);
    LeadingWordDelimited(s, w);
    if w in Words(s) {
      if w != s[..n] {
        assert w in Words(t);
        var j :| DelimitedAt(t, w, j);
        ShiftDelimited(s, w, n, j);
        assert DelimitedAt(s, w, n + j);
      } else {
        assert DelimitedAt(s, w, 0);
      }
    }
    if exists i :: DelimitedAt(s, w, i) {
      var i :| DelimitedAt(s, w, i);
      LaterTokenAfterWord(s, w, i);
    }
  }

  /** Python's `w in s.split()` holds exactly when `w` is a whole
      whitespace-delimited token of `s`, not merely a substring of it. */
  lemma {:induction false} WordsAreDelimitedTokens(s: string, w: string)
    requires w != [] && NoSpace(w)
    ensures w in Words(s) <==> exists i :: DelimitedAt(s, w, i)
    decreases |s|
  {
    if s == [] {
      assert forall i :: !DelimitedAt(s, w, i);
    } else if IsSpace(s[0]) {
      WordsAreDelimitedTokens(s[1..], w);
      TokensAfterSpace(s, w);
    } else {
      WordsAreDelimitedTokens(s[WordLength(s)..], w);
      TokensAfterWord(s, w);
    }
  }
}

=== FILE: users.dfy ===
/** The `ac`-output helpers shared by the user-centred producers: the users
    `ac -p` reports, each user's connect time and login count from `ac -d`,
    and the users ranked by one of those two metrics.

    The `ac` runs are inputs: `acTotals` is the output of `ac -p` and
    `acDaily(user)` that of `ac -d user`. The fourth field of an `ac -d` line
    is a decimal number of hours that Python reads with `float()`; `parse`
    stands for that conversion and answers None where `float()` raises
    ValueError.
 */
module Users {
  import opened Results
  import opened Text
  import opened Seqs

  predicate NonEmpty(line: string) {
    line != []
  }

  /** The non-empty lines of a command's output, in order. */
  function OutputLines(out: string): (lines: seq<string>)
    ensures forall k :: 0 <= k < |lines| ==> lines[k] != [] && '\n' !in lines[k]
    ensures IsSubseq(lines, Split(out, '\n'))
    ensures forall p :: multiset(lines)[p] == if p != [] then multiset(Split(out, '\n'))[p] else 0
    ensures |lines| <= |Split(out, '\n')|
  {
    var pieces := Split(out, '\n');
    var lines := Filter(pieces, NonEmpty);
    FilterKeeps(pieces, NonEmpty);
    forall k | 0 <= k < |lines| ensures lines[k] != [] && '\n' !in lines[k] {
      assert lines[k] in pieces;
    }
    lines
  }

  /** `[line.split()[0].strip() for line in lines]`: the first word of every
      line, or IndexError as soon as a line has no word at all. */
  function FirstWords(lines: seq<string>): (r: Result<seq<string>>)
    ensures r.Success? <==> forall k :: 0 <= k < |lines| ==> Words(lines[k]) != []
    ensures r.Failure? ==> r.error == IndexError
    ensures r.Success? ==>
      && |r.value| == |lines|
      && forall k :: 0 <= k < |lines| ==> Words(lines[k]) != [] && r.value[k] == Words(lines[k])[0]
    decreases |lines|
  {
    if lines == [] then Success([])
    else if Words(lines[0]) == [] then Failure(IndexError)
    else
      var rest := FirstWords(lines[1..]);
      if rest.Failure? then
        assert Words(lines[1..][0]) == [] || exists k :: 0 <= k < |lines[1..]| && Words(lines[1..][k]) == [];
        rest
      else
        Success([Words(lines[0])[0]] + rest.value)
  }

  /** `r` is `users` after `if x in users: users.remove(x)`: the first
      occurrence of `x`, if any, is gone and nothing else changed. */
  ghost predicate RemovedFirst(users: seq<string>, x: string, r: seq<string>) {
    && (x in users ==> exists i :: FirstAt(users, x, i) && r == users[..i] + users[i + 1..])
    && (x !in users ==> r == users)
  }

  /** `if x in users: users.remove(x)`. */
  function RemoveIfPresent(users: seq<string>, x: string): (r: seq<string>)
    ensures RemovedFirst(users, x, r)
    ensures multiset(r) == multiset(users) - multiset{x}
    ensures IsSubseq(r, users)
  {
    if x in users then
      var r := RemoveFirst(users, x);
      var i :| FirstAt(users, x, i) && r == users[..i] + users[i + 1..];
      assert RemovedFirst(users, x, r);
      assert multiset(users) == multiset(users[..i]) + multiset{x} + multiset(users[i + 1..]) by {
        assert users == users[..i] + [x] + users[i + 1..];
      }
      SubseqDelete(users, i);
      r
    else
      SubseqRefl(users);
      users
  }

  /** The exclusion loop of `get_users_from_ac()`: the first occurrence of
      each excluded name is removed; everything else keeps its order. */
  function Exclude(listed: seq<string>): (r: seq<string>)
    ensures exists a, b ::
      && RemovedFirst(listed, "_mbsetupuser", a)
      && RemovedFirst(a, "root", b)
      && RemovedFirst(b, "total", r)
    ensures multiset(r) == multiset(listed) - multiset{"_mbsetupuser"} - multiset{"root"} - multiset{"total"}
    ensures IsSubseq(r, listed)
  {
    var a := RemoveIfPresent(listed, "_mbsetupuser");
    var b := RemoveIfPresent(a, "root");
    var c := RemoveIfPresent(b, "total");
    SubseqTrans(b, a, listed);
    SubseqTrans(c, b, listed);
    assert RemovedFirst(listed, "_mbsetupuser", a) && RemovedFirst(a, "root", b) && RemovedFirst(b, "total", c);
    c
  }

  /** `get_users_from_ac()`: the first word of every non-empty line of the
      `ac -p` report, in order, with the first occurrence of each excluded
      name removed. A non-empty line made only of whitespace raises
      IndexError. */
  function UsersFromAc(acTotals: string): (r: Result<seq<string>>)
    ensures r.Success? <==> FirstWords(OutputLines(acTotals)).Success?
    ensures r.Failure? ==> r.error == IndexError
    ensures r.Success? ==> r.value == Exclude(FirstWords(OutputLines(acTotals)).value)
  {
    var listed :- FirstWords(OutputLines(acTotals));
    Success(Exclude(listed))
  }

  // ---------------------------------------------------------------------------
  // get_user_num_logins / get_user_connect_time

  /** `get_user_num_logins()`: the number of non-empty lines of `ac -d`. */
  function NumLogins(acOutput: string): (n: nat)
    ensures n + multiset(Split(acOutput, '\n'))[[]] == |Split(acOutput, '\n')|
  {
    NonEmptyCount(Split(acOutput, '\n'));
    |OutputLines(acOutput)|
  }

  /** Every piece is either kept as a line or is empty. */
  lemma {:induction false} NonEmptyCount(pieces: seq<string>)
    ensures |Filter(pieces, NonEmpty)| + multiset(pieces)[[]] == |pieces|
    decreases |pieces|
  {
    if pieces != [] {
      NonEmptyCount(pieces[1..]);
      assert pieces == [pieces[0]] + pieces[1..];
    }
  }

  /** Reports concatenated line by line add their login counts. */
  lemma NumLoginsAppend(a: string, b: string)
    ensures NumLogins(a + "\n" + b) == NumLogins(a) + NumLogins(b)
  {
    OutputLinesAppend(a, b);
  }

  /** `float(line.split()[3])` succeeds on `line`. */
  predicate Readable(line: string, parse: string -> Option<real>) {
    |Words(line)| >= 4 && parse(Words(line)[3]).Some?
  }

  /** `float(line.split()[3])`: IndexError when the line has fewer than four
      fields, ValueError when the fourth is not a number. */
  function LineTime(line: string, parse: string -> Option<real>): (r: Result<real>)
    ensures r.Success? <==> Readable(line, parse)
    ensures r.Success? ==> parse(Words(line)[3]) == Some(r.value)
    ensures r.Failure? ==> (r.error == IndexError <==> |Words(line)| < 4)
    ensures r.Failure? ==> r.error == IndexError || r.error == ValueError
  {
    var ws := Words(line);
    if |ws| < 4 then Failure(IndexError)
    else if parse(ws[3]).None? then Failure(ValueError)
    else Success(parse(ws[3]).value)
  }

  /** The fourth field of every line read as a number, stopping at the first
      line that cannot be read. */
  function FieldTimes(lines: seq<string>, parse: string -> Option<real>): (r: Result<seq<real>>)
    ensures r.Success? <==> forall k :: 0 <= k < |lines| ==> LineTime(lines[k], parse).Success?
    ensures r.Success? ==>
      && |r.value| == |lines|
      && forall k :: 0 <= k < |lines| ==> LineTime(lines[k], parse) == Success(r.value[k])
    ensures r.Failure? ==> r.error == IndexError || r.error == ValueError
    decreases |lines|
  {
    if lines == [] then Success([])
    else
      var t :- LineTime(lines[0], parse);
      var rest := FieldTimes(lines[1..], parse);
      assert forall k :: 1 <= k < |lines| ==> lines[k] == lines[1..][k - 1];
      if rest.Failure? then rest
      else Success([t] + rest.value)
  }

  /** The loop's `if time_connected > 0: connect_time += time_connected`. */
  function PositiveSum(xs: seq<real>): (total: real)
    ensures xs == [] ==> total == 0.0
    ensures |xs| == 1 ==> total == (if xs[0] > 0.0 then xs[0] else 0.0)
    ensures total >= 0.0
    ensures forall k :: 0 <= k < |xs| && xs[k] > 0.0 ==> total >= xs[k]
    decreases |xs|
  {
    if xs == [] then 0.0
    else
      var rest := PositiveSum(xs[1..]);
      assert forall k :: 1 <= k < |xs| ==> xs[k] == xs[1..][k - 1];
      (if xs[0] > 0.0 then xs[0] else 0.0) + rest
  }

  /** Summing positives distributes over concatenation. */
  lemma {:induction false} PositiveSumAppend(xs: seq<real>, ys: seq<real>)
    ensures PositiveSum(xs + ys) == PositiveSum(xs) + PositiveSum(ys)
    decreases |xs|
  {
    if xs == [] {
      assert xs + ys == ys;
    } else {
      assert (xs + ys)[1..] == xs[1..] + ys;
      PositiveSumAppend(xs[1..], ys);
    }
  }

  /** `get_user_connect_time()`: the sum of the positive fourth fields of the
      non-empty lines of `ac -d`; never negative. */
  function ConnectTime(acOutput: string, parse: string -> Option<real>): (r: Result<real>)
    ensures r.Success? ==> r.value >= 0.0
    ensures r.Success? <==> FieldTimes(OutputLines(acOutput), parse).Success?
    ensures r.Success? ==> r.value == PositiveSum(FieldTimes(OutputLines(acOutput), parse).value)
    ensures r.Failure? ==> r.error == IndexError || r.error == ValueError
  {
    var times :- FieldTimes(OutputLines(acOutput), parse);
    Success(PositiveSum(times))
  }

  /** The per-line fields of two reports read as one are the fields of each. */
  lemma FieldTimesAppend(xs: seq<string>, ys: seq<string>, parse: string -> Option<real>)
    requires FieldTimes(xs, parse).Success? && FieldTimes(ys, parse).Success?
    ensures FieldTimes(xs + ys, parse) == Success(FieldTimes(xs, parse).value + FieldTimes(ys, parse).value)
  {
    var a := FieldTimes(xs, parse).value;
    var b := FieldTimes(ys, parse).value;
    var zs := xs + ys;
    forall k | 0 <= k < |zs|
      ensures LineTime(zs[k], parse) == Success((a + b)[k])
    {
      if k < |xs| {
        assert zs[k] == xs[k];
      } else {
        assert zs[k] == ys[k - |xs|];
      }
    }
    var r := FieldTimes(zs, parse).value;
    assert r == a + b;
  }

  /** The positive times of two blocks of lines read as one add up. */
  lemma PositiveTimesAppend(la: seq<string>, lb: seq<string>, parse: string -> Option<real>)
    requires FieldTimes(la, parse).Success? && FieldTimes(lb, parse).Success?
    ensures FieldTimes(la + lb, parse).Success?
    ensures PositiveSum(FieldTimes(la + lb, parse).value)
            == PositiveSum(FieldTimes(la, parse).value) + PositiveSum(FieldTimes(lb, parse).value)
  {
    FieldTimesAppend(la, lb, parse);
    PositiveSumAppend(FieldTimes(la, parse).value, FieldTimes(lb, parse).value);
  }

  /** Reports concatenated line by line add their connect times. */
  lemma ConnectTimeAppend(a: string, b: string, parse: string -> Option<real>)
    requires ConnectTime(a, parse).Success? && ConnectTime(b, parse).Success?
    ensures ConnectTime(a + "\n" + b, parse) == Success(ConnectTime(a, parse).value + ConnectTime(b, parse).value)
  {
    var ab := a + "\n" + b;
    var la, lb := OutputLines(a), OutputLines(b);
    assert FieldTimes(la, parse).Success? && FieldTimes(lb, parse).Success?;
    var ca, cb := ConnectTime(a, parse).value, ConnectTime(b, parse).value;
    assert ca == PositiveSum(FieldTimes(la, parse).value);
    assert cb == PositiveSum(FieldTimes(lb, parse).value);
    OutputLinesAppend(a, b);
    assert OutputLines(ab) == la + lb;
    PositiveTimesAppend(la, lb, parse);
    var total := PositiveSum(FieldTimes(la + lb, parse).value);
    assert total == ca + cb;
    assert ConnectTime(ab, parse) == Success(total);
  }

  /** A non-empty text without a newline is a single output line. */
  lemma SingleOutputLine(line: string)
    requires line != [] && '\n' !in line
    ensures OutputLines(line) == [line]
  {
    SplitJoin([line], '\n');
    assert Split(line, '\n') == [line];
    assert Filter([line], NonEmpty) == [line] + Filter([line][1..], NonEmpty);
  }

  /** A report of one readable line counts one login and that line's time,
      when positive. With the two `Append` lemmas this fixes both values for
      every report made of such lines. */
  lemma OneLineReport(line: string, parse: string -> Option<real>)
    requires line != [] && '\n' !in line && Readable(line, parse)
    ensures NumLogins(line) == 1
    ensures var t := parse(Words(line)[3]).value;
      ConnectTime(line, parse) == Success(if t > 0.0 then t else 0.0)
  {
    SingleOutputLine(line);
    var t := parse(Words(line)[3]).value;
    assert LineTime(line, parse) == Success(t);
    var times := FieldTimes([line], parse);
    assert times.Success? && |times.value| == 1;
    assert LineTime([line][0], parse) == Success(times.value[0]);
    assert times.value == [t];
    assert PositiveSum([t]) == if t > 0.0 then t else 0.0;
  }

  /** The non-empty lines of two outputs joined by a newline are those of the
      first followed by those of the second. */
  lemma OutputLinesAppend(a: string, b: string)
    ensures OutputLines(a + "\n" + b) == OutputLines(a) + OutputLines(b)
  {
    SplitAppend(a, b, '\n');
    assert a + "\n" + b == a + ['\n'] + b;
    FilterAppend(Split(a, '\n'), Split(b, '\n'), NonEmpty);
  }

  // ---------------------------------------------------------------------------
  // get_users_info / get_users

  /** One entry of `users_info`. */
  datatype Info = Info(connectTime: real, numLogins: nat)

  /** `get_users_info()`: for each listed user, the connect time and login
      count of their `ac -d` report; the first report that cannot be read
      makes the whole call fail. */
  function UsersInfo(users: seq<string>, acDaily: string -> string, parse: string -> Option<real>): (r: Result<map<string, Info>>)
    ensures r.Success? ==> r.value.Keys == set u | u in users
    ensures r.Success? ==> forall u :: u in r.value ==>
      && ConnectTime(acDaily(u), parse) == Success(r.value[u].connectTime)
      && r.value[u].numLogins == NumLogins(acDaily(u))
    ensures r.Failure? ==> exists u :: u in users && ConnectTime(acDaily(u), parse).Failure?
    ensures r.Failure? ==> r.error == IndexError || r.error == ValueError
    decreases |users|
  {
    if users == [] then Success(map[])
    else
      var init := users[..|users| - 1];
      var u := users[|users| - 1];
      assert users == init + [u];
      var before := UsersInfo(init, acDaily, parse);
      if before.Failure? then
        var w :| w in init && ConnectTime(acDaily(w), parse).Failure?;
        before
      else
        var t := ConnectTime(acDaily(u), parse);
        if t.Failure? then Failure(t.error)
        else Success(before.value[u := Info(t.value, NumLogins(acDaily(u)))])
  }

  /** The ranking metric `get_users()` is asked for. */
  function Metric(info: map<string, Info>, sortedBy: string): string -> real {
    (u: string) =>
      if u !in info then 0.0
      else if sortedBy == "connect_time" then info[u].connectTime
      else info[u].numLogins as real
  }

  /** `get_users(sorted_by)`: the distinct users `ac -p` reports, ranked from
      the largest to the smallest connect time or login count. Any other
      `sorted_by` ends the process with status 1, but only once every
      report has been read. */
  function GetUsers(acTotals: string, acDaily: string -> string, parse: string -> Option<real>, sortedBy: string): (r: Result<seq<string>>)
    ensures r.Success? ==> sortedBy == "connect_time" || sortedBy == "num_logins"
    ensures r.Success? ==>
      && UsersFromAc(acTotals).Success?
      && UsersInfo(UsersFromAc(acTotals).value, acDaily, parse).Success?
      && var users := UsersFromAc(acTotals).value;
         var info := UsersInfo(users, acDaily, parse).value;
         && multiset(r.value) == multiset(Distinct(users))
         && SortedDesc(r.value, Metric(info, sortedBy))
    ensures (&& UsersFromAc(acTotals).Success?
             && UsersInfo(UsersFromAc(acTotals).value, acDaily, parse).Success?
             && sortedBy != "connect_time" && sortedBy != "num_logins") ==> r == Failure(SystemExit(1))
    ensures (&& UsersFromAc(acTotals).Success?
             && UsersInfo(UsersFromAc(acTotals).value, acDaily, parse).Success?
             && (sortedBy == "connect_time" || sortedBy == "num_logins")) ==> r.Success?
    ensures UsersFromAc(acTotals).Failure? ==> r == Failure(UsersFromAc(acTotals).error)
    ensures (&& UsersFromAc(acTotals).Success?
             && UsersInfo(UsersFromAc(acTotals).value, acDaily, parse).Failure?)
            ==> r == Failure(UsersInfo(UsersFromAc(acTotals).value, acDaily, parse).error)
  {
    var users :- UsersFromAc(acTotals);
    var info :- UsersInfo(users, acDaily, parse);
    if sortedBy == "connect_time" || sortedBy == "num_logins" then
      Success(SortDesc(Distinct(users), Metric(info, sortedBy)))
    else
      Failure(SystemExit(1))
  }

  /** Every ranked user is a reported one and appears once. */
  lemma RankedUsersDistinct(acTotals: string, acDaily: string -> string, parse: string -> Option<real>, sortedBy: string)
    requires GetUsers(acTotals, acDaily, parse, sortedBy).Success?
    ensures UsersFromAc(acTotals).Success?
    ensures forall u :: u in GetUsers(acTotals, acDaily, parse, sortedBy).value <==> u in UsersFromAc(acTotals).value
    ensures var ranked := GetUsers(acTotals, acDaily, parse, sortedBy).value;
      forall i, j :: 0 <= i < j < |ranked| ==> ranked[i] != ranked[j]
  {
    var users := UsersFromAc(acTotals).value;
    PermutationOfDistinct(GetUsers(acTotals, acDaily, parse, sortedBy).value, Distinct(users));
  }
}

=== FILE: ventura_upgrade.dfy ===
/** The `ventura_upgrade_supported` producer: whether this Mac can be
    upgraded to macOS 13 Ventura. A virtual machine always can; otherwise the
    hardware must be recognised by model, board id or device id, and the
    running system must be macOS 10.9 through 12.

    Host inputs: the `machdep.cpu.features` sysctl string, the raw `model` and
    `board-id` IORegistry values decoded as text, the `hw.target` sysctl
    string and the Darwin major version from `os.uname()`.
 */
module VenturaUpgrade {
  import opened Text
  import opened Facts
  import opened Platform

  const FactKey := "ventura_upgrade_supported"

  /** `supported_models` in `is_supported_model()`. */
  const SupportedModels: seq<string> :=
    [
      "MacBookPro14,2", "MacBookPro14,3", "MacBook10,1", "MacBookPro14,1", "MacBookPro15,2",
      "iMac18,1", "iMac18,2", "iMac18,3", "iMacPro1,1", "iMac19,1"
    ] + [
      "iMac19,2", "MacBookAir8,2", "MacBookAir8,1", "MacBookPro16,1", "MacPro7,1",
      "Macmini8,1", "iMac20,1", "iMac20,2", "MacBookPro15,4", "MacBookPro16,2"
    ] + [
      "MacBookPro16,4", "MacBookPro16,3", "MacBookAir9,1", "MacBookPro15,1", "MacBookPro15,3"
    ]

  /** `platform_support_values` in `is_supported_board_id()`. */
  const PlatformSupportValues: seq<string> :=
    [
      "Mac-CAD6701F7CEA0921", "Mac-551B86E5744E2388", "Mac-EE2EBD4B90B839A8", "Mac-B4831CEBD52A0C4C", "Mac-827FB448E656EC26",
      "Mac-4B682C642B45593E", "Mac-77F17D7DA9285301", "Mac-BE088AF8C5EB4FA2", "Mac-7BA5B2D9E42DDD94", "Mac-AA95B1DDAB278B95"
    ] + [
      "Mac-63001698E7A34814", "Mac-226CB3C6A851A671", "Mac-827FAC58A8FDFA22", "Mac-E1008331FDC96864", "Mac-27AD2F918AE68F61",
      "Mac-7BA5B2DFE22DDD8C", "Mac-CFF7D910A743CAAF", "Mac-AF89B6D9451A490B", "Mac-53FDB3D8DB8CA971", "Mac-5F9802EFE386AA28"
    ] + [
      "Mac-A61BADE1FDAD7B05", "Mac-E7203C0F68AA0004", "Mac-0CFF9C7C2B63DF8D", "Mac-937A206F2EE63C01", "Mac-1E7E29AD0135F9BC",
      "Mac-112818653D3AABFC", "VMM-x86_64"
    ]

  /** `device_support_values` in `is_supported_device_id()`. */
  const DeviceSupportValues: seq<string> :=
    [
      "J313AP", "J274AP", "J230AP", "J456AP", "VMM-x86_64",
      "J185FAP", "VMA2MACOSAP", "J214KAP", "J375dAP", "J780AP"
    ] + [
      "J185AP", "J316cAP", "J215AP", "J493AP", "X86LEGACYAP",
      "J293AP", "J132AP", "J137AP", "J314cAP", "J230KAP"
    ] + [
      "J140AAP", "J457AP", "J413AP", "J213AP", "J174AP",
      "J140KAP", "X589AMLUAP", "J316sAP", "J160AP", "J152FAP"
    ] + [
      "J314sAP", "J375cAP", "J680AP", "J223AP", "J214AP"
    ]

  /** `fact()`: a virtual machine is always eligible; any other Mac is eligible
      when one of its three hardware identifiers is recognised and it runs
      Darwin 13 through 21 (macOS 10.9 through 12). */
  function Fact(cpuFeatures: string, modelRaw: string, boardRaw: string, hwTarget: string, darwinMajor: int): (r: FactMap)
    ensures r.Keys == {FactKey}
    ensures HasVmmFeature(cpuFeatures) ==> r[FactKey] == Bool(true)
    ensures !HasVmmFeature(cpuFeatures) ==>
      (r[FactKey] == Bool(true) <==>
        && (|| IoKeyStringValue(modelRaw) in SupportedModels
            || IoKeyStringValue(boardRaw) in PlatformSupportValues
            || exists i :: 0 <= i < |DeviceSupportValues| && Lower(DeviceSupportValues[i]) == Lower(hwTarget))
        && 13 <= darwinMajor <= 21)
    ensures r[FactKey] == Bool(false) || r[FactKey] == Bool(true)
  {
    if HasVmmFeature(cpuFeatures) then BoolFact(FactKey, true)
    else if (|| IsListedModel(IoKeyStringValue(modelRaw), SupportedModels)
             || IoKeyStringValue(boardRaw) in PlatformSupportValues
             || IsListedDeviceId(hwTarget, DeviceSupportValues))
         && InVersionWindow(darwinMajor, 9, 18)
    then BoolFact(FactKey, true)
    else BoolFact(FactKey, false)
  }

  /** The device-id test ignores case on both sides: the list spells the
      Intel virtual machine target 'VMM-x86_64', and any spelling of it
      matches. */
  lemma DeviceIdIgnoresCase()
    ensures IsListedDeviceId("vmm-X86_64", DeviceSupportValues)
    ensures IsListedDeviceId("VMM-X86_64", DeviceSupportValues)
  {
    assert Lower(DeviceSupportValues[4]) == Lower("vmm-X86_64");
    assert Lower(DeviceSupportValues[4]) == Lower("VMM-X86_64");
  }

  /** Once the Mac runs Ventura or later only a virtual machine is offered the
      upgrade, whatever its hardware. */
  lemma NotOfferedOnceInstalled(cpuFeatures: string, modelRaw: string, boardRaw: string, hwTarget: string, darwinMajor: int)
    requires darwinMajor >= 22
    ensures Fact(cpuFeatures, modelRaw, boardRaw, hwTarget, darwinMajor)[FactKey] == Bool(HasVmmFeature(cpuFeatures))
  {
  }
}
